=== FILE: README.md ===
# Approximate multi-party PSI, modelled in Dafny

This project models the core of an outsourced, approximate multi-party private set
intersection (MPSI) protocol. Party 0 is an untrusted server, party 1 is the querier, and
every other party is a client; the querier also acts as a client. The client parties share
pairwise 16-byte seeds. Each client expands its seeds with an extendable-output hash and
XORs the expansions into a *zero share*, so the shares of all clients XOR to zero. In the
intended protocol, a client then masks with random bytes the 40-byte chunks of its share that
belong to bins its Bloom filter does not mark, and sends the result to the server. The code as
written masks one byte per filter bit instead; see "## Findings". The server XORs the messages it
receives. For each querier element, it XORs the chunks the element's filter indices name; an
all-zero result means "in the intersection". The querier keeps exactly the elements reported
as matches.

The modules follow the source files:

| module | file | models |
|---|---|---|
| `Bytes` | bytes.dfy | bytes, 64-bit words, little-endian encoding, `Option` |
| `SimdBytes` | simd_bytes.dfy | the flat byte buffer `SimdBytes` of secret_sharing_simd and its XOR algebra |
| `ZeroSharing` | zero_sharing.dfy | the `create_zero_share*` family |
| `Corruption` | corruption.dfy | `conditionally_corrupt_share` and its parallel variant |
| `Chunked64` | chunked64.dfy | the older 64-byte-chunk `SimdBytes` of secret_sharing.cpp |
| `Sets` | sets.dfy | `Set`: insertion, equality, intersection, sizing, hashing to indices, Bloom filters |
| `Wire` | wire.dfy | the bit-vector and list-of-lists message encodings |
| `FullMesh` | full_mesh.dfy | the per-pair FIFO network `FullMesh` |
| `Channels` | channels.dfy | the older per-party transport `Channels` |
| `Mpsi` | mpsi.dfy | the `ApproximateMpsi` / `ApproximateMpsiParty` protocol steps |
| `Pipeline` | pipeline.dfy | one end-to-end run, as written and repaired |

Several things the source gets from its environment become parameters:

- The hash functions become parameters. `Xof` is the intended seed expansion: it hashes the
  16 seed bytes and returns exactly the requested number of bytes, as the array-seed
  `blake3_xof` of secret_sharing_simd.cpp:187-199 does. `ByteHash` is the hash
  over a byte string that the source actually calls. As written, the source hands it the
  seed's address with the output length as the input length, so it reads past the seed
  (`ZeroSharing.HashInput`; see "## Findings"). `IndexHash` maps an element and a hash
  number to a digest. Only the first eight digest bytes matter: they are read as a
  little-endian word.
- The random seeds (`rnd`), the corruption bytes (`random`) and the thread count
  (`threads`) are supplied by the caller.
- Parallel loops are modelled as the sequential fold over the same index ranges.
- A `Set` is the sequence of its elements in iteration order. `Valid` says no element is
  repeated; `Contents` is the mathematical set it denotes.

## Model

| member | source | states |
|---|---|---|
| SimdBytes.Filled | secret_sharing_simd.cpp:101-106 | the sized constructors make `n` bytes, all equal to the given value |
| SimdBytes.Resize | secret_sharing_simd.cpp:108-110 | the result has the new length, keeps the old bytes that fit, and zero-pads the rest |
| SimdBytes.Fill | secret_sharing_simd.cpp:116-118 | the length is unchanged and every byte is the fill value |
| SimdBytes.Xor | secret_sharing_simd.cpp:129-141 | both operands have the same length; byte `i` of the result is the XOR of the two bytes `i` |
| SimdBytes.XorAssoc | secret_sharing_simd.cpp:129-141 | helper algebra for `^=`: XOR of buffers is associative |
| SimdBytes.XorComm | secret_sharing_simd.cpp:129-141 | helper algebra for `^=`: XOR of buffers is commutative |
| SimdBytes.XorSelf | secret_sharing_simd.cpp:129-141 | helper algebra for `^=`: a buffer XORed with itself is all zero |
| SimdBytes.XorZero | secret_sharing_simd.cpp:129-141 | helper algebra for `^=`: the all-zero buffer is the identity on both sides |
| SimdBytes.Select | secret_sharing_simd.cpp:147-156 | byte `i` comes from the true buffer where mask byte `i` is non-zero and from the false buffer otherwise |
| SimdBytes.ToByteChunks | secret_sharing_simd.hpp:107-124 | a buffer whose length is a multiple of `C` splits into `len / C` chunks of `C` bytes that concatenate back to the buffer |
| SimdBytes.ToByteChunksSlice | secret_sharing_simd.hpp:117-121 | chunk `i` is bytes `i*C` up to `(i+1)*C` of the buffer |
| SimdBytes.ToByteChunksByte | secret_sharing_simd.hpp:117-121 | byte `j` of chunk `i` is byte `i*C + j` of the buffer |
| SimdBytes.FoldFromFirst | secret_sharing_simd.cpp:220-236 | starting from the first buffer and XORing the rest gives the same result as folding from zero |
| SimdBytes.XorFoldConcat | secret_sharing_simd.cpp:220-236 | the fold over two concatenated lists is the XOR of the two folds |
| SimdBytes.XorFoldPermutation | secret_sharing_simd.cpp:220-236 | the XOR of a list of expansions depends only on the multiset of inputs, not on their order |
| SimdBytes.XorFoldEvenCancels | secret_sharing_simd.cpp:220-236 | when every input occurs an even number of times, the XOR of their expansions is all zero |
| SimdBytes.XorFoldPairwise | secret_sharing_simd.cpp:129-141 | XORing two lists element by element and then folding equals XORing the two folds |
| SimdBytes.XorFoldRepeat | secret_sharing_simd.cpp:129-141 | `m` copies of one buffer fold to zero when `m` is even and to the buffer when `m` is odd |
| SimdBytes.XorFoldColumn | secret_sharing_simd.cpp:129-141 | byte `i` of a fold depends only on byte `i` of each buffer |
| ZeroSharing.ZeroShareSnoc | secret_sharing_simd.cpp:220-236 | adding one seed XORs its expansion into the share |
| ZeroSharing.ZeroShareConcat | secret_sharing_simd.cpp:220-236 | the share of two seed lists together is the XOR of their shares |
| ZeroSharing.CreateZeroShareNoResize | secret_sharing_simd.cpp:210-236 | with at least one seed, the loop's result is the XOR of the `n`-byte expansions of all seeds (`create_zero_share2` is the same loop) |
| ZeroSharing.ResizeXor | secret_sharing_simd.cpp:238-259 | helper algebra for the resizing loop: cutting or padding commutes with XOR |
| ZeroSharing.CreateZeroShare | secret_sharing_simd.cpp:238-259 | the share is the full XOR of expansions, cut or zero-padded to as many bytes as there are seeds |
| ZeroSharing.CreateZeroShareParallelNoThreadpool | secret_sharing_simd.cpp:261-305 | the per-thread partial XORs combine to the sequential share, resized to the seed count; no seeds give no bytes |
| ZeroSharing.CreateZeroShareParallel | secret_sharing_simd.cpp:307-348 | the thread-pool version equals the sequential share, and no seeds give `n` zero bytes |
| ZeroSharing.ZeroShareOrderIndependent | secret_sharing_simd.cpp:220-236 | two seed lists with the same multiset give the same share |
| ZeroSharing.AggregateIsShareOfAllSeeds | secret_sharing_simd.cpp:220-236 | XORing the shares of several parties gives the share of all their seeds together |
| ZeroSharing.ZeroSharesCancel | test_secret_sharing.cpp:9-34 | when every seed is held by an even number of party slots, the parties' shares XOR to zero |
| ZeroSharing.ThreePartySharesCancel | test_secret_sharing.cpp:9-34 | three parties holding seeds `{12,13}`, `{12,23}`, `{13,23}` get shares that XOR to zero, for any hash |
| ZeroSharing.ThreePartyExample | test_secret_sharing.cpp:9-34 | the test's expected outcome: with the test's three constant seeds, 128-byte shares of the seed-only expansion cancel |
| ZeroSharing.TestShareAsWritten | secret_sharing_simd.cpp:238-259 | `create_zero_share` on the test's two seeds and 128 requested bytes returns the first 2 bytes of the share, not 128 |
| ZeroSharing.SeedHash | secret_sharing_simd.cpp:187-199 | the intended expansion, as the array-seed `blake3_xof` computes it: the 16 seed bytes alone are hashed to the requested length |
| ZeroSharing.HashInput | secret_sharing_simd.cpp:202-207 | as written, the hash input for seed `k` is `n` bytes: that seed, the seeds after it in the row, then the memory past the row |
| ZeroSharing.ExpandAsWritten | secret_sharing_simd.cpp:202-207 | the over-reading `do_generic_hash` returns `n` bytes; up to 16 requested bytes it hashes a prefix of the seed alone, beyond that the hash input also holds later seeds or memory past the row |
| ZeroSharing.ZeroShareAsWritten | secret_sharing_simd.cpp:220-236 | the share as written is `n` bytes, the XOR of the over-reading expansions |
| ZeroSharing.SeedSizedShareAsWritten | secret_sharing_simd.cpp:202-236 | asked for exactly 16 bytes, the hash reads just the seed, and the share as written equals the share of the seed-only expansion |
| ZeroSharing.PairSeedHoldersHashDifferentInputs | secret_sharing_simd.cpp:202-207 | two holders of one pair seed with different second seeds hash different inputs for it whenever more than the seed is read, whatever memory follows |
| ZeroSharing.TwoSeedShareByte | secret_sharing_simd.cpp:220-236 | under the identity-like hash and zero memory, byte 16 of a two-seed share as written is the second seed's first byte |
| ZeroSharing.OverReadSharesDoNotCancel | secret_sharing_simd.cpp:202-236 | with the expansion as written, the three-party test's 32-byte shares XOR to a non-zero buffer (byte 16 is 2) |
| Corruption.ConditionallyCorruptShare | secret_sharing_simd.cpp:392-419 | the length is kept; a byte is replaced by the random byte exactly when its chunk's condition is set |
| Corruption.CorruptShareChunks | secret_sharing_simd.cpp:392-419 | a whole chunk is the random chunk when its condition holds and the share chunk otherwise |
| Corruption.CorruptedByte | secret_sharing_simd.cpp:449-454 | a byte whose condition is set keeps the share byte (wrapped around the share); otherwise it is the random byte XOR the share byte |
| Corruption.WorkerExtends | secret_sharing_simd.cpp:440-457 | one worker's range appended to the earlier ranges gives the prefix up to its end |
| Corruption.RunWorkers | secret_sharing_simd.cpp:459-481 | running the workers over consecutive ranges covering every condition produces the whole corrupted buffer |
| Corruption.ConditionallyCorruptShareParallel | secret_sharing_simd.cpp:421-482 | one output byte per condition: the share byte where the condition holds, the random byte XOR the share byte elsewhere |
| Chunked64.FromBytes | secret_sharing.cpp:17-28 | a flat buffer gives its `len / 64` whole 64-byte chunks in order |
| Chunked64.ToBytes | secret_sharing.cpp:55-63 | the chunks laid end to end give 64 bytes per chunk |
| Chunked64.ToBytesFromBytes | secret_sharing.cpp:17-63 | to chunks and back keeps exactly the whole-chunk prefix |
| Chunked64.FromBytesToBytes | secret_sharing.cpp:17-63 | to bytes and back gives the same chunks |
| Chunked64.Select | secret_sharing.cpp:31-52 | each masked byte comes from the true chunk where the mask byte is non-zero and from the false chunk otherwise |
| Chunked64.SelectIsFlatSelect | secret_sharing.cpp:31-52 | the chunked select agrees with the flat per-byte select on the laid-out buffers |
| Sets.Insert | Set.cpp:162-164 | the contents grow by exactly the element, no element gets repeated, and an element already present changes nothing |
| Sets.InsertIdempotent | Set.cpp:162-164 | inserting the same element twice is the same as inserting it once |
| Sets.Equal | Set.cpp:79-81 | `==` implies every element of the left set is in the right one, and when equal-sized sets are not `==` some element of the left is missing from the right |
| Sets.EqualIsSetEquality | Set.cpp:79-81 | for well-formed sets, `==` (same size and every element of one in the other) holds exactly when the contents are equal |
| Sets.IntersectEach | Set.cpp:65-71 | the running result keeps exactly the elements present in every given set |
| Sets.Intersection | Set.cpp:62-73 | an element is in the result exactly when the list is non-empty and every set holds it; the result repeats nothing |
| Sets.CeilBits | Set.cpp:93-109 | the result is the ceiling of `n * 14.3779296875`, the bits-per-element constant |
| Sets.BitArraySize | Set.cpp:93-109 | the size is `40 * ceil(14.378 n)` capped at `MAX_BITS`, a multiple of 40, and zero exactly for the empty set |
| Sets.AlignToShare | Set.cpp:202-204 | rounds up to the next multiple of 40 and leaves multiples unchanged |
| Sets.AlignedBitArraySize | Set.cpp:200-204 | the alignment step never changes a computed bit-array size |
| Sets.HashValue | Set.cpp:115-119 | the hash value is below `256^min(8, len)`, and its lowest byte is the digest's first byte, as a little-endian `memcpy` gives |
| Sets.HashValueOfWord | Set.cpp:115-119 | the hash value of a digest is its first eight bytes read as a little-endian word |
| Sets.HashValueShort | Set.cpp:115-119 | a digest shorter than a word is read as if zero-padded |
| Sets.ElementIndices | Set.cpp:146-160 | one index per hash number, each below the modulus |
| Sets.SetIndexLists | Set.cpp:181-198 | the live set-level `bloom_filter_indices`: one list of `hash_count` indices per element in iteration order, index `i` of element `k` being `(hv % B) % bin_count` with `B` the optimal bit size |
| Sets.SetIndexListsInRange | Set.cpp:181-198 | every set-level query index is below `bin_count` |
| Sets.MarkAll | Set.cpp:167-178 | marking indices sets exactly the listed bits, in addition to those already set |
| Sets.ElementPatterns | approx_mpsi.cpp:308-312 | the commented-out per-element query patterns, built with `bloom_filter_indices(element, …)` of Set.cpp:146-160: one list per element in iteration order, each that element's `hv % bin_count` indices |
| Sets.InPatterns | Set.cpp:167-178 | an index appears in some element's pattern exactly when some element hashes to it |
| Sets.ToBloomFilter | Set.cpp:200-218 | the filter has the aligned size, and bit `j` is set exactly when some element's hash value modulo the filter length is `j` |
| Sets.ToBloomFilter2 | Set.cpp:167-178 | the filter has `bin_count` bits, and bit `j` is set exactly when some element hashes to `j` modulo `bin_count` |
| Sets.MemberPatternInFilter2 | Set.cpp:146-178 | every index of a member's own pattern is set in its `to_bloom_filter2` filter |
| Sets.FilterAndQueryModuliDisagree | Set.cpp:181-218 | a one-element set whose hash value is 599 has query index 87 at `bin_count` 512 but its filter sets bit 599 and not bit 87 |
| Sets.FilterAndQueryModuliDisagreeWitness | Set.cpp:181-218 | the same disagreement for a concrete constant hash |
| Wire.PackBits | FullMesh.cpp:92-102 | `ceil(n/8)` bytes, bool `i` in bit `i % 8` of byte `i / 8`, padding bits clear |
| Wire.PackBitsLoop | FullMesh.cpp:92-102 | the sender's OR-into-zeroed-bytes loop yields that packing |
| Wire.UnpackBits | FullMesh.cpp:150-159 | eight bools per byte |
| Wire.UnpackPackBits | FullMesh.cpp:92-159 | unpacking a packing gives the bits back, padded with `false` to a multiple of eight |
| Wire.PackUnpackBits | FullMesh.cpp:92-159 | packing an unpacked byte string gives the bytes back |
| Wire.ReadWriteWords | FullMesh.cpp:73-148 | words written one after another are read back in order |
| Wire.EncodeLists | FullMesh.cpp:73-89 | the payload read back word by word is the outer count, then for each list its length and values; the same layout as Channels.cpp:63-79 |
| Wire.EncodeListsLength | FullMesh.cpp:73-89 | the payload is one word for the count plus, per list, one word for its length and one per value |
| Wire.DecodeEncodeLists | FullMesh.cpp:73-148 | decoding an encoding gives the lists back, whatever bytes follow |
| Wire.DecodeLists | FullMesh.cpp:130-148 | an empty payload gives no lists, a payload shorter than one word fails, and any other payload that decodes starts with the encoding of its result; the same reader as Channels.cpp:43-61 |
| Wire.DecodeEmpty | Channels.cpp:43-61 | an empty payload decodes to the empty list of lists |
| FullMesh.NewMesh | FullMesh.cpp:20-40 | either constructor (`FullMesh(party_count)` directly, the three-argument one through `initialize_channels`) makes one endpoint per party; every queue of the static network map is empty at start-up |
| FullMesh.Send | FullMesh.cpp:53-71 | the message joins the back of its pair's queue and no other queue changes |
| FullMesh.Receive | FullMesh.cpp:106-128 | the front message is returned and removed, and no other queue changes |
| FullMesh.SendThenReceive | FullMesh.cpp:53-128 | each pair is FIFO: a send followed by a receive behaves like a receive followed by a send |
| FullMesh.SendsToDifferentPairsCommute | FullMesh.cpp:53-71 | sends to different pairs can be reordered |
| FullMesh.SendLists | FullMesh.cpp:73-89 | the encoded lists join the queue |
| FullMesh.ReceiveLists | FullMesh.cpp:130-148 | the front message is decoded as lists |
| FullMesh.ListsRoundTrip | FullMesh.cpp:73-148 | lists sent over an idle pair arrive unchanged |
| FullMesh.SendBits | FullMesh.cpp:92-102 | the packed bits join the queue |
| FullMesh.ReceiveBits | FullMesh.cpp:150-159 | the front message is unpacked, eight bools per byte |
| FullMesh.BitsRoundTrip | FullMesh.cpp:92-159 | bits sent over an idle pair arrive unchanged, followed only by `false` padding |
| FullMesh.GetChannels | FullMesh.cpp:165-170 | an endpoint exists exactly for ids below the party count |
| Channels.Send | Channels.cpp:10-14 | the message joins the back of the recipient's queue and no other queue changes |
| Channels.Receive | Channels.cpp:30-41 | an empty queue gives the empty message and changes nothing; otherwise the front message is returned and removed |
| Channels.SendThenReceive | Channels.cpp:10-41 | a message sent to an idle key is the next one received |
| Channels.SendLists | Channels.cpp:63-79 | the encoded lists join the queue |
| Channels.ReceiveLists | Channels.cpp:43-61 | an empty queue gives no lists; otherwise the front message is decoded and removed, and every other queue is unchanged |
| Channels.ListsRoundTrip | Channels.cpp:43-79 | lists sent to an idle key come back unchanged |
| Channels.SendBits | Channels.cpp:92-102 | the packed bits join the queue |
| Channels.ReceiveBits | Channels.cpp:81-90 | an empty queue gives no bits; otherwise the front message is unpacked and removed, and every other queue is unchanged |
| Channels.BitsRoundTrip | Channels.cpp:81-102 | bits sent to an idle key come back with `false` padding to a multiple of eight |
| Mpsi.BinCount | approx_mpsi.cpp:23 | the least multiple of 64 not below the minimum; a minimum within 63 of the 64-bit limit wraps to zero |
| Mpsi.BinCountLeast | approx_mpsi.cpp:23 | no smaller multiple of 64 covers the minimum |
| Mpsi.SetupParties | approx_mpsi.cpp:36-62 | party 0 has no seeds; party `k` has `n-1` seeds, the pair seed shared with party `c+1` in slot `c` and the all-zero seed in its own slot `k-1` |
| Mpsi.SetupPartiesSymmetric | approx_mpsi.cpp:36-62 | party `i`'s slot for `j` holds the same seed as party `j`'s slot for `i` |
| Mpsi.PairRowsEven | approx_mpsi.cpp:36-62 | in the pairwise matrix without the diagonal, every seed occurs an even number of times |
| Mpsi.SetupPartiesCorrected | approx_mpsi.cpp:36-62 | without the diagonal, party `k` holds exactly one seed for each other client |
| Mpsi.SetupPartiesDiagonal | approx_mpsi.cpp:36-62 | each row as written is the corrected row with the zero seed inserted at the party's own slot |
| Mpsi.CorrectedSharesCancel | approx_mpsi.cpp:36-62 | the corrected clients' zero shares XOR to zero for every hash and length |
| Mpsi.DiagonalShare | approx_mpsi.cpp:36-62 | each written share is the corrected share XOR the expansion of the zero seed |
| Mpsi.WrittenAggregateSplit | approx_mpsi.cpp:36-62 | the written aggregate is the corrected aggregate XOR `n-1` copies of the zero seed's expansion |
| Mpsi.SetupPartiesAggregate | approx_mpsi.cpp:36-62 | the written clients' shares XOR to zero when the client count is even and to the zero seed's expansion when it is odd |
| Mpsi.SetupPartiesThreeClientsDoNotCancel | approx_mpsi.cpp:36-62 | with three clients and a hash that expands every seed to ones, the aggregate is all ones, not zero |
| Mpsi.SetupParties2 | approx_mpsi.cpp:64-92 | `n+1` rows, row 0 empty, the others of `f` seeds; party `i` alone holds the seed for `(i, j)` in slot `j-1`; the other slots, the last slot and the last party stay zero |
| Mpsi.SetupParties2SharesDoNotCancel | approx_mpsi.cpp:64-92 | with two parties and three slots, only party 1 holds the one random seed, so the shares do not cancel under a hash that separates it from the zero seed |
| Mpsi.ChunksAreShares | approx_mpsi.cpp:281-282 | every chunk of the aggregate has 40 bytes |
| Mpsi.ComputeQueryResults | approx_mpsi.cpp:274-303 | one result per pattern, true exactly when the XOR of the indexed 40-byte chunks is all zero; an empty pattern always matches |
| Mpsi.EmptyPatternMatches | approx_mpsi.cpp:285-296 | the zero accumulator of an empty pattern reports a match |
| Mpsi.SingleIndexMatches | approx_mpsi.cpp:274-303 | a one-index pattern matches exactly when that chunk is all zero |
| Mpsi.MatchesOrderIndependent | approx_mpsi.cpp:274-303 | patterns with the same multiset of indices get the same result |
| Mpsi.PairedIndicesMatch | approx_mpsi.cpp:274-303 | a pattern naming each index an even number of times always matches |
| Mpsi.ZeroChunksMatch | approx_mpsi.cpp:274-303 | a pattern of all-zero chunks matches |
| Mpsi.ExtractIntersection | approx_mpsi.cpp:318-333 | the output repeats nothing and holds exactly the input elements whose result is true, so it is a subset of the input |
| Mpsi.ExtractedElements | approx_mpsi.cpp:318-333 | all-true results keep the whole input, and for a well-formed input an element is kept exactly when its result is true |
| Mpsi.NonEmptyMembers | approx_mpsi.cpp:340-347 | the server keeps exactly the non-empty messages |
| Mpsi.NonEmptyAll | approx_mpsi.cpp:340-347 | when every message is non-empty, all of them are kept |
| Mpsi.KeepNonEmpty | approx_mpsi.cpp:340-347 | the receiving loop keeps the non-empty messages in order |
| Mpsi.FoldShares | approx_mpsi.cpp:350-356 | starting from the first kept share and XORing the rest gives the XOR of all of them |
| Mpsi.AggregateEmpty | approx_mpsi.cpp:340-356 | the aggregate is empty exactly when every message is empty |
| Mpsi.AggregateShares | approx_mpsi.cpp:340-356 | the server's aggregate is the XOR of the non-empty messages, and it is empty exactly when every message is empty |
| Mpsi.AggregateAllPresent | approx_mpsi.cpp:340-356 | when every client sends a share of the same non-zero width, the aggregate is the XOR of all of them |
| Mpsi.RoleOf | approx_mpsi.cpp:452-465 | id 0 is the server, id 1 the querier, and every other id a client |
| Mpsi.RunResult | approx_mpsi.cpp:449-472 | every party reports a set, only the querier a non-empty one, and the thread record mirrors the result |
| Mpsi.PresentSets | approx_mpsi.cpp:145-151 | the present sets are exactly those wrapped in `Some` |
| Mpsi.ClientInputs | approx_mpsi.cpp:145-151 | the sets intersected are exactly the present inputs after index 0 |
| Mpsi.ValidateOutputs | approx_mpsi.cpp:139-159 | validation fails when the querier has no output |
| Mpsi.ClientIntersection | approx_mpsi.cpp:144-152 | an element is expected exactly when some input after index 0 is present and every present one holds it |
| Mpsi.ValidateMeansIntersection | approx_mpsi.cpp:139-159 | for well-formed sets, validation passes exactly when the querier's output holds precisely the elements common to every present input after index 0 |
| Pipeline.RunClientAsWritten | approx_mpsi.cpp:406-447 | the client's message has one byte per `to_bloom_filter` bit, whatever `bin_count` is |
| Pipeline.LiveQueryOutOfRange | approx_mpsi.cpp:274-316 | with one element whose hash value is 599 and `bin_count` 512, the message has 15 chunks while the query index is 87 |
| Pipeline.Spread | secret_sharing_simd.cpp:392-419 | each filter bit becomes a condition for all 40 bytes of its bin |
| Pipeline.CorruptedChunk | secret_sharing_simd.cpp:421-482 | a marked bin keeps its share chunk; an unmarked bin becomes the share chunk XOR the random chunk |
| Pipeline.RunClient | approx_mpsi.cpp:406-447 | the repaired client's message has `40 * bin_count` bytes; marked bins carry the zero share and unmarked ones are masked by random bytes |
| Pipeline.RunClients | approx_mpsi.cpp:406-447 | every client's message has full width and carries its zero share in each bin it marks |
| Pipeline.AggregateChunkZero | approx_mpsi.cpp:340-356 | when every client carries its share in a bin and the shares cancel, that bin of the aggregate is zero |
| Pipeline.CommonElementMatches | approx_mpsi.cpp:274-303 | an element held by every client matches in the aggregate |
| Pipeline.RunQuery | approx_mpsi.cpp:379-404 | the repaired querier, with per-element `hv % bin_count` patterns: its output repeats nothing, lies within its set, and for a well-formed set holds exactly the elements whose pattern matches |
| Pipeline.RunCorrectedProtocol | approx_mpsi.cpp:335-447 | in the repaired protocol, the querier's output contains the intersection of all inputs and lies within the querier's own set |

## Left out

- The hash functions (`blake3_xof`, `xof`, the SHA and BLAKE wrappers) are not part of this model. They are the `Xof`, `ByteHash` and `IndexHash` parameters. Only `blake3_xof`, the default, returns exactly the requested length; the others return a fixed-size digest.
- ZeroSharing.Xof: it hashes the 16 seed bytes alone to the requested length, which is what the array-seed `blake3_xof` at secret_sharing_simd.cpp:187-199 computes. The commented-out call at line 204 would not give it: it asks the byte-string `blake3_xof` of hash_funcs.cpp for as many bytes as it hashes, so every expansion would be 16 bytes long. The live call at line 205 hashes `byte_count` bytes from the seed's address, which runs into the following seeds and past the row. That is modelled separately by `ZeroSharing.HashInput` and `ZeroSharing.ZeroShareAsWritten` and recorded under "## Findings". Every member below that takes an `Xof` is stated for the seed-only expansion.
- ZeroSharing.ZeroShareSnoc: stated for the seed-only expansion. As written, appending a seed also changes the hash inputs of the seeds before it.
- ZeroSharing.ZeroShareConcat: stated for the seed-only expansion. As written, a seed's expansion depends on the seeds after it, so the share of a concatenation is not the XOR of the two shares.
- ZeroSharing.CreateZeroShareNoResize: the loop is modelled as written, but over the seed-only expansion rather than the over-reading one of line 205.
- ZeroSharing.CreateZeroShare: the resize to the seed count is modelled as written, but the expansions are seed-only.
- ZeroSharing.CreateZeroShareParallelNoThreadpool: the combination of partial XORs is modelled as written, but the expansions are seed-only.
- ZeroSharing.CreateZeroShareParallel: the thread-pool fold is modelled as written, but the expansions are seed-only.
- ZeroSharing.ZeroShareOrderIndependent: holds for the seed-only expansion only. As written, reordering seeds changes their hash inputs.
- ZeroSharing.AggregateIsShareOfAllSeeds: holds for the seed-only expansion only.
- ZeroSharing.ZeroSharesCancel: holds for the seed-only expansion only. As written, the two holders of a pair seed hash different inputs (`ZeroSharing.PairSeedHoldersHashDifferentInputs`).
- ZeroSharing.ThreePartySharesCancel: holds for the seed-only expansion only; `ZeroSharing.OverReadSharesDoNotCancel` shows the same instance failing as written.
- ZeroSharing.ThreePartyExample: it states the test's expected outcome for the seed-only expansion. As written the test does not reach it. It calls `create_zero_share` without the hash name that secret_sharing_simd.hpp:140 requires, `create_zero_share` returns 2 bytes (`ZeroSharing.TestShareAsWritten`), and the expansion over-reads.
- Mpsi.CorrectedSharesCancel: the cancellation is proved for the seed-only expansion, the corrected half of both the seed-matrix and the over-read findings.
- Mpsi.DiagonalShare: splitting off the zero seed's expansion is stated for the seed-only expansion.
- Mpsi.WrittenAggregateSplit: stated for the seed-only expansion.
- Mpsi.SetupPartiesAggregate: the even/odd outcome is stated for the seed-only expansion. As written the over-read also breaks the cancellation.
- Pipeline.RunCorrectedProtocol: the repaired protocol uses the seed-only expansion; with the over-reading expansion of line 205 the shares need not cancel, and "intersection within output" does not follow.
- The source's index hash reads `size + i` bytes from the element's buffer, which over-reads it. The model passes the hash number `i` as an explicit argument instead.
- Threads, thread pools and `hardware_concurrency`: the parallel routines are sequential folds over the same ranges. The thread count is a parameter. A thread count of 0, which `hardware_concurrency` may return, is excluded by `threads >= 1` because the source divides by it at secret_sharing_simd.cpp:462.
- Random number generation is left out. Seeds and corruption bytes are parameters.
- Latency and bandwidth simulation (`simulate_network`, the latency constructors), the `Stats` timings and console output are left out. They affect neither results nor messages.
- `main`, command-line handling, `evaluate`, `gen_sets_with_uniform_intersection` and `generate_inputs` are left out. They are experiment drivers with randomness and timing, and the model takes the input sets as given.
- `compute_optimal_hash_count` is left out because it is floating-point arithmetic. The hash count is a parameter.
- The Bloom-filter-library branch, `secret_sharing_simd_bk1.cpp`, `secret_sharing_simd_bk2.cpp` and the `#if 0` SSE blocks (secret_sharing_simd.cpp lines 20-98 and 350-390) are left out. None of them is compiled in.
- A `std::unordered_set` has an unspecified iteration order. The model fixes one order as the `Set`'s sequence, and every property is stated for any order. The querier's patterns walk the member `elements` (Set.cpp:185), while `extract_intersection` walks the copy `get_elements()` returns (Set.cpp:83-85, approx_mpsi.cpp:324-326). The model reads both from one sequence, so it assumes the copy iterates in the original's order and `results[i]` belongs to the i-th element; the C++ standard does not promise that.
- Sets.CeilBits: the source computes `n * 14.3779296875` in `double` and multiplies by 40 in 64-bit arithmetic. The model uses exact integers, which agree while `n` stays below about 6 * 10^11.
- Pipeline.RunQuery: the querier's patterns are the per-element `hv % bin_count` indices of the commented-out variant at approx_mpsi.cpp:308-312. The live `generate_query_patterns` (approx_mpsi.cpp:315) uses the set-level `(hv % B) % bin_count` of `Sets.SetIndexLists`. The repaired query matches the modulus of the repaired client's `to_bloom_filter2` bits; see the Set.cpp:181-218 finding.
- Pipeline.RunCorrectedProtocol: the query patterns and results are passed directly rather than through `FullMesh`. `FullMesh.ListsRoundTrip` and `FullMesh.BitsRoundTrip` prove that transport is exact.
- Wire.DecodeLists: a payload too short for the lengths it announces decodes to `None`. The source reads through `std::istringstream::read`, which stops at the end of the input without reading past it. There, a missing count keeps its initial zero or a partial value, and missing values stay zero. A missing inner length is an uninitialised local passed to `resize`, so the decoded lists are indeterminate or allocation fails. The model does not reproduce that indeterminate result.
- Channels.Receive: the source's `operator[]` creates an empty queue for an unknown key. The model reads an absent key as the empty queue, which gives the same observable behaviour.
- Corruption.ConditionallyCorruptShareParallel: the source's `chunk_size` argument is never read, so the model has no such parameter. Its random bytes, one per condition, are a parameter.
- The default `chunk_size` of `conditionally_corrupt_share` and its parallel variant is `SHARE_BYTE_COUNT`, 40 (secret_sharing_simd.hpp:148-158). The model passes the chunk size explicitly. `TestCorruptShares` (test_secret_sharing.cpp:37-72) relies on that default but checks 5-byte ranges, so it assumes 5-byte chunks and no longer matches the code; it is not modelled.
- Chunked64: secret_sharing.cpp declares its own `SHARE_BYTE_COUNT` of 64. Only its chunk size of 64 is modelled.

## Findings

| source | as written | input that shows it | evidently intended | confidence | as-written member | corrected member |
|---|---|---|---|---|---|---|
| approx_mpsi.cpp:36-62 | every party's seed row keeps the all-zero seed in its own slot, so the zero seed's expansion enters the aggregate once per client | four parties (three clients) and any hash that expands the zero seed to a non-zero buffer: the aggregate equals that expansion, so no element ever matches | each pairwise seed is held by exactly two clients, and nothing else is | not executed; high | Mpsi.SetupPartiesThreeClientsDoNotCancel | Mpsi.CorrectedSharesCancel |
| approx_mpsi.cpp:64-92 | `setup_parties2` writes each random seed into party `i`'s row only, because the mirrored write is commented out | two parties, three slots, `rnd(1,2)` different from the zero seed: party 1's share is the seed's expansion and party 2's is zero, so the XOR is non-zero | each seed also goes to its partner, as in `setup_parties` | not executed; high | Mpsi.SetupParties2SharesDoNotCancel | Mpsi.CorrectedSharesCancel |
| secret_sharing_simd.cpp:202-207 | `do_generic_hash` passes the output length `byte_count` as the hash input length (line 205; the commented-out call at line 204 would make every expansion 16 bytes long), so `blake3_xof` hashes the seed, the seeds after it in the row, and memory past the row | the three-party test's seeds with 32-byte shares, the hash returning its input, and zero memory past the rows: byte 16 of the XOR of the three shares is 2 | each seed is expanded from its 16 bytes alone to `byte_count` bytes, as the array-seed `blake3_xof` at lines 187-199 does, so both holders of a pair seed get the same expansion | not executed; high | ZeroSharing.OverReadSharesDoNotCancel | ZeroSharing.ThreePartySharesCancel |
| secret_sharing_simd.cpp:238-259 | `create_zero_share` resizes every expansion to `seeds.size()` bytes | the test's two seeds and 128 requested bytes give a 2-byte share, where the test expects 128 | the share has the requested `byte_count` bytes, as in `create_zero_share_no_resize`, which the protocol calls | not executed; high | ZeroSharing.TestShareAsWritten | ZeroSharing.CreateZeroShareNoResize |
| Set.cpp:181-218 | `to_bloom_filter` sets bit `hv % L` (L is the aligned bit-array size), while the query indices are `(hv % L) % bin_count` | one element with hash value 599, `bin_count` 512, one hash: the filter sets bit 599 while the query asks for index 87 | the filter and the query use the same modulus, `bin_count` | not executed; high | Sets.FilterAndQueryModuliDisagreeWitness | Sets.MemberPatternInFilter2 |
| approx_mpsi.cpp:274-316 | the client sends one byte per filter bit (600 bytes for one element), and the server cuts them into 15 chunks but reads chunk 87 | the same one-element input: `shares[87]` in `compute_query_results` is past the end of a 15-chunk array | each client sends `40 * bin_count` bytes, one 40-byte chunk per bin, and corrupts chunks by `to_bloom_filter2` bits | not executed; high | Pipeline.LiveQueryOutOfRange | Pipeline.RunCorrectedProtocol |

=== FILE: bytes.dfy ===
/** Byte buffers, little-endian machine words and the helper datatypes shared by
    every layer of the approximate multi-party PSI model. */
module Bytes {

  type byte = bv8
  type Buf = seq<byte>

  /** `size_t` values: the source runs on a 64-bit little-endian machine. */
  const WORD_BYTES: nat := 8
  const U64_LIMIT: nat := 0x1_0000_0000_0000_0000
  type u64 = x: nat | x < U64_LIMIT

  datatype Option<+T> = None | Some(value: T)

  function Min(a: nat, b: nat): nat { if a <= b then a else b }

  /** The all-zero buffer of `n` bytes (`std::vector<uint8_t>(n, 0)`). */
  function Zeros(n: nat): (r: Buf)
    ensures |r| == n
    ensures forall i :: 0 <= i < n ==> r[i] == 0
  {
    seq(n, _ => 0)
  }

  predicate AllZero(b: Buf) {
    forall i :: 0 <= i < |b| ==> b[i] == 0
  }

  function Pow256(k: nat): (r: nat)
    ensures r > 0
  {
    if k == 0 then 1 else 256 * Pow256(k - 1)
  }

  lemma Pow256Word()
    ensures Pow256(WORD_BYTES) == U64_LIMIT
  {
  }

  lemma {:induction false} Pow256Monotone(j: nat, k: nat)
    requires j <= k
    ensures Pow256(j) <= Pow256(k)
    decreases k
  {
    if j < k {
      Pow256Monotone(j, k - 1);
    }
  }

  lemma MulSucc(i: nat, c: nat)
    ensures (i + 1) * c == i * c + c
  {
  }

  lemma MulMono(a: nat, b: nat, c: nat)
    requires a <= b
    ensures a * c <= b * c
  {
    var d := b - a;
    assert b * c == a * c + d * c;
  }

  /** `i / c` is the unique `q` with `q*c <= i < (q+1)*c`. */
  lemma DivUnique(i: nat, c: nat, q: nat)
    requires c > 0 && q * c <= i < q * c + c
    ensures i / c == q
  {
    var d := i / c;
    assert i == d * c + i % c;
    if d < q {
      MulSucc(d, c);
      MulMono(d + 1, q, c);
    } else if d > q {
      MulSucc(q, c);
      MulMono(q + 1, d, c);
    }
  }

  /** Value of a byte string read as an unsigned little-endian number. */
  function LittleEndian(b: Buf): (r: nat)
    ensures r < Pow256(|b|)
    decreases |b|
  {
    if |b| == 0 then 0 else b[0] as nat + 256 * LittleEndian(b[1..])
  }

  /** The `k`-byte little-endian representation of `v`. */
  function EncodeLE(v: nat, k: nat): (r: Buf)
    requires v < Pow256(k)
    ensures |r| == k
    ensures LittleEndian(r) == v
    decreases k
  {
    if k == 0 then []
    else
      DivBelowPower(v, k);
      var rest := EncodeLE(v / 256, k - 1);
      var low := (v % 256) as byte;
      ByteRoundTrip(v % 256);
      assert ([low] + rest)[1..] == rest;
      assert LittleEndian([low] + rest) == low as nat + 256 * LittleEndian(rest);
      [low] + rest
  }

  lemma ByteRoundTrip(x: nat)
    requires x < 256
    ensures (x as byte) as nat == x
  {
    if x < 16 {} else if x < 32 {} else if x < 64 {} else if x < 128 {} else {}
  }

  lemma DivBelowPower(v: nat, k: nat)
    requires 0 < k && v < Pow256(k)
    ensures v / 256 < Pow256(k - 1)
  {
  }

  /** Splitting `a + 256 * q` into its low byte and the rest. */
  lemma DivModByte(a: nat, q: nat)
    requires a < 256
    ensures (a + 256 * q) % 256 == a
    ensures (a + 256 * q) / 256 == q
  {
  }

  /** Two byte strings of one length with the same value are equal. */
  lemma {:induction false} LittleEndianInjective(a: Buf, b: Buf)
    requires |a| == |b| && LittleEndian(a) == LittleEndian(b)
    ensures a == b
    decreases |a|
  {
    if |a| > 0 {
      DivModByte(a[0] as nat, LittleEndian(a[1..]));
      DivModByte(b[0] as nat, LittleEndian(b[1..]));
      assert a[0] as nat == b[0] as nat;
      LittleEndianInjective(a[1..], b[1..]);
      assert a == [a[0]] + a[1..] && b == [b[0]] + b[1..];
    }
  }

  /** One `size_t` as it appears in memory: 8 bytes, least significant first. */
  function Word(v: u64): (r: Buf)
    ensures |r| == WORD_BYTES
    ensures LittleEndian(r) == v
  {
    Pow256Word();
    EncodeLE(v, WORD_BYTES)
  }

  /** The value of the first 8 bytes of `b`, which exists whenever `|b| >= 8`. */
  function ReadWord(b: Buf): u64
    requires |b| >= WORD_BYTES
  {
    Pow256Word();
    LittleEndian(b[..WORD_BYTES])
  }

  /** Reading is the inverse of writing, in both directions. */
  lemma ReadWordInverse(b: Buf)
    requires |b| >= WORD_BYTES
    ensures Word(ReadWord(b)) == b[..WORD_BYTES]
  {
    LittleEndianInjective(Word(ReadWord(b)), b[..WORD_BYTES]);
  }

  lemma ReadWordOf(v: u64, rest: Buf)
    ensures ReadWord(Word(v) + rest) == v
    ensures (Word(v) + rest)[WORD_BYTES..] == rest
  {
    assert (Word(v) + rest)[..WORD_BYTES] == Word(v);
  }

  /** Concatenation of a list of sequences, in order. */
  function Flatten<T>(chunks: seq<seq<T>>): (r: seq<T>)
    decreases |chunks|
  {
    if |chunks| == 0 then [] else chunks[0] + Flatten(chunks[1..])
  }

  lemma {:induction false} FlattenConcat<T>(a: seq<seq<T>>, b: seq<seq<T>>)
    ensures Flatten(a + b) == Flatten(a) + Flatten(b)
    decreases |a|
  {
    if |a| == 0 {
      assert a + b == b;
    } else {
      assert (a + b)[1..] == a[1..] + b;
      FlattenConcat(a[1..], b);
    }
  }

  lemma {:induction false} FlattenLength<T>(chunks: seq<seq<T>>, c: nat)
    requires forall i :: 0 <= i < |chunks| ==> |chunks[i]| == c
    ensures |Flatten(chunks)| == c * |chunks|
    decreases |chunks|
  {
    if |chunks| > 0 {
      FlattenLength(chunks[1..], c);
    }
  }
}

=== FILE: channels.dfy ===
/** `Channels`: the older per-party transport, one FIFO queue of byte messages per
    integer key (`network[recipient]`). Unlike `FullMesh`, receiving from an empty queue
    does not wait: it returns an empty message and changes nothing. */
module Channels {
  import opened Bytes
  import opened Wire

  /** The static `network` map; a key never written to reads as the empty queue. */
  datatype Net = Net(queues: map<int, seq<Buf>>)

  function Queue(n: Net, key: int): seq<Buf> {
    if key in n.queues then n.queues[key] else []
  }

  /** `send(data, recipient)`: the message joins the back of `network[recipient]`; no
      other queue changes. */
  function Send(n: Net, data: Buf, recipient: int): (r: Net)
    ensures Queue(r, recipient) == Queue(n, recipient) + [data]
    ensures forall k :: k != recipient ==> Queue(r, k) == Queue(n, k)
  {
    Net(n.queues[recipient := Queue(n, recipient) + [data]])
  }

  /** `receive(sender)`: an empty queue yields the empty message and leaves every queue
      as it was; otherwise the front message is returned and removed. */
  function Receive(n: Net, sender: int): (r: (Buf, Net))
    ensures Queue(n, sender) == [] ==> r.0 == [] && forall k :: Queue(r.1, k) == Queue(n, k)
    ensures Queue(n, sender) != [] ==> [r.0] + Queue(r.1, sender) == Queue(n, sender)
    ensures forall k :: k != sender ==> Queue(r.1, k) == Queue(n, k)
  {
    var q := Queue(n, sender);
    if |q| == 0 then ([], n) else (q[0], Net(n.queues[sender := q[1..]]))
  }

  /** FIFO per key: a message sent to an idle key is the next one received from it. */
  lemma SendThenReceive(n: Net, key: int, d: Buf)
    requires Queue(n, key) == []
    ensures Receive(Send(n, d, key), key).0 == d
    ensures Queue(Receive(Send(n, d, key), key).1, key) == []
  {
  }

  /** `send(to, std::vector<std::vector<size_t>>)`: the serialised lists. */
  function SendLists(n: Net, to: int, lists: seq<seq<u64>>): (r: Net)
    requires Encodable(lists)
    ensures Queue(r, to) == Queue(n, to) + [EncodeLists(lists)]
  {
    Send(n, EncodeLists(lists), to)
  }

  /** `receive(from, std::vector<std::vector<size_t>>&)`: the received payload, decoded;
      with nothing queued the payload is empty and the outer list stays empty; otherwise the front message is
      removed and every other queue is unchanged. */
  function ReceiveLists(n: Net, from: int): (r: (Option<seq<seq<u64>>>, Net))
    ensures Queue(n, from) == [] ==> r.0 == Some([]) && r.1 == n
    ensures Queue(n, from) != [] ==> r.0 == DecodeLists(Queue(n, from)[0])
    ensures Queue(n, from) != [] ==> Queue(r.1, from) == Queue(n, from)[1..]
    ensures forall k :: k != from ==> Queue(r.1, k) == Queue(n, k)
  {
    var (bytes, n') := Receive(n, from);
    (DecodeLists(bytes), n')
  }

  lemma ListsRoundTrip(n: Net, key: int, lists: seq<seq<u64>>)
    requires Encodable(lists) && Queue(n, key) == []
    ensures ReceiveLists(SendLists(n, key, lists), key).0 == Some(lists)
  {
    DecodeEncodeLists(lists, []);
    assert EncodeLists(lists) + [] == EncodeLists(lists);
  }

  /** `send(to, std::vector<bool>)`: the packed bits. */
  function SendBits(n: Net, to: int, bits: seq<bool>): (r: Net)
    ensures Queue(r, to) == Queue(n, to) + [PackBits(bits)]
  {
    Send(n, PackBits(bits), to)
  }

  /** `receive(from, std::vector<bool>&)`: eight bools per received byte, none when
      nothing is queued; the front message is removed and every other queue is unchanged. */
  function ReceiveBits(n: Net, from: int): (r: (seq<bool>, Net))
    ensures Queue(n, from) == [] ==> r.0 == [] && r.1 == n
    ensures Queue(n, from) != [] ==> r.0 == UnpackBits(Queue(n, from)[0])
    ensures Queue(n, from) != [] ==> Queue(r.1, from) == Queue(n, from)[1..]
    ensures forall k :: k != from ==> Queue(r.1, k) == Queue(n, k)
  {
    var (bytes, n') := Receive(n, from);
    (UnpackBits(bytes), n')
  }

  /** Bits sent to an idle key come back padded with `false` to a multiple of eight. */
  lemma BitsRoundTrip(n: Net, key: int, bits: seq<bool>)
    requires Queue(n, key) == []
    ensures ReceiveBits(SendBits(n, key, bits), key).0
            == bits + seq(8 * PackedSize(|bits|) - |bits|, _ => false)
  {
    UnpackPackBits(bits);
  }
}

=== FILE: chunked64.dfy ===
/** The self-contained `SimdBytes` struct of secret_sharing.cpp: a buffer held as a list
    of 64-byte arrays. Only whole chunks are kept, so conversion from a flat buffer drops a
    trailing partial chunk. */
module Chunked64 {
  import opened Bytes
  import opened SimdBytes

  const CHUNK: nat := 64

  /** Every chunk is one 64-byte array. */
  predicate WellFormed(chunks: seq<Buf>) {
    forall i :: 0 <= i < |chunks| ==> |chunks[i]| == 64
  }

  /** `from_bytes`: the `n / 64` whole chunks of the input, in order. */
  function FromBytes(b: Buf): (r: seq<Buf>)
    ensures |r| == |b| / 64
    ensures WellFormed(r)
    ensures forall i :: 0 <= i < |r| ==> r[i] == b[64 * i .. 64 * i + 64]
  {
    seq(|b| / 64, i requires 0 <= i < |b| / 64 => b[64 * i .. 64 * i + 64])
  }

  /** `to_bytes`: the chunks laid end to end. */
  function ToBytes(chunks: seq<Buf>): (r: Buf)
    requires WellFormed(chunks)
    ensures |r| == 64 * |chunks|
  {
    FlattenLength(chunks, 64);
    Flatten(chunks)
  }

  /** Byte `j` of chunk `i` sits at position `64 * i + j` of the flat buffer. */
  lemma ToBytesIndex(chunks: seq<Buf>, i: nat, j: nat)
    requires WellFormed(chunks) && i < |chunks| && j < 64
    ensures 64 * i + j < |ToBytes(chunks)|
    ensures ToBytes(chunks)[64 * i + j] == chunks[i][j]
  {
    ChunkIsSlice(chunks, 64, i);
  }

  /** Converting to chunks and back keeps exactly the whole-chunk prefix. */
  lemma ToBytesFromBytes(b: Buf)
    ensures ToBytes(FromBytes(b)) == b[..64 * (|b| / 64)]
  {
    var chunks := FromBytes(b);
    var flat := ToBytes(chunks);
    forall p | 0 <= p < |flat|
      ensures flat[p] == b[p]
    {
      var i := p / 64;
      ToBytesIndex(chunks, i, p % 64);
    }
  }

  /** Converting a chunk list to bytes and back gives the same chunks. */
  lemma FromBytesToBytes(chunks: seq<Buf>)
    requires WellFormed(chunks)
    ensures FromBytes(ToBytes(chunks)) == chunks
  {
    var flat := ToBytes(chunks);
    forall i | 0 <= i < |chunks|
      ensures FromBytes(flat)[i] == chunks[i]
    {
      ChunkIsSlice(chunks, 64, i);
    }
  }

  /** `select(masks, true_values, false_values)`: for each mask chunk, byte `j` comes from
      the true chunk where the mask byte is non-zero and from the false chunk elsewhere.
      The source indexes both value lists by the mask index, so they need at least as
      many chunks as there are masks. */
  function Select(masks: seq<Buf>, t: seq<Buf>, f: seq<Buf>): (r: seq<Buf>)
    requires WellFormed(masks) && WellFormed(t) && WellFormed(f)
    requires |t| >= |masks| && |f| >= |masks|
    ensures |r| == |masks| && WellFormed(r)
    ensures forall i, j :: 0 <= i < |masks| && 0 <= j < 64 ==>
              r[i][j] == (if masks[i][j] != 0 then t[i][j] else f[i][j])
  {
    seq(|masks|, i requires 0 <= i < |masks| => SimdBytes.Select(masks[i], t[i], f[i]))
  }

  /** The chunked select agrees with the flat per-byte select on the laid-out buffers. */
  lemma SelectIsFlatSelect(masks: seq<Buf>, t: seq<Buf>, f: seq<Buf>)
    requires WellFormed(masks) && WellFormed(t) && WellFormed(f)
    requires |t| >= |masks| && |f| >= |masks|
    ensures ToBytes(Select(masks, t, f))
            == SimdBytes.Select(ToBytes(masks), ToBytes(t[..|masks|]), ToBytes(f[..|masks|]))
  {
    var r := Select(masks, t, f);
    var t' := t[..|masks|];
    var f' := f[..|masks|];
    var lhs := ToBytes(r);
    var rhs := SimdBytes.Select(ToBytes(masks), ToBytes(t'), ToBytes(f'));
    forall p | 0 <= p < |lhs|
      ensures lhs[p] == rhs[p]
    {
      var i := p / 64;
      var j := p % 64;
      ToBytesIndex(r, i, j);
      ToBytesIndex(masks, i, j);
      ToBytesIndex(t', i, j);
      ToBytesIndex(f', i, j);
    }
  }
}

=== FILE: corruption.dfy ===
/** Conditional corruption of a zero-share (secret_sharing_simd). The two routines use
    opposite conventions. The chunk-wise `conditionally_corrupt_share` replaces the chunks
    whose condition is set by random bytes and keeps the others. The parallel
    `conditionally_corrupt_share_parallel`, the one `run_client_approx` calls, keeps the
    share byte where the condition is set and XOR-masks it with a random byte where it is
    not, so positions a party's Bloom filter marks stay intact and can still cancel on
    aggregation. Both routines take their random bytes, and the parallel one its thread
    count, as inputs. */
module Corruption {
  import opened Bytes
  import opened SimdBytes

  /** `conditionally_corrupt_share`: byte `i` is replaced by `random[i]` exactly when its
      chunk `i / chunkSize` has a condition and that condition is set; the output keeps
      the share's length. The source divides by `chunkSize` once there is a byte. */
  method ConditionallyCorruptShare(share: Buf, conds: seq<bool>, random: Buf, chunkSize: nat)
    returns (corrupted: Buf)
    requires |random| == |share|
    requires chunkSize > 0 || |share| == 0
    ensures |corrupted| == |share|
    ensures forall i :: 0 <= i < |share| ==>
              corrupted[i] == (if i / chunkSize < |conds| && conds[i / chunkSize] then random[i] else share[i])
  {
    corrupted := Zeros(|share|);
    var i := 0;
    while i < |share|
      invariant 0 <= i <= |share|
      invariant |corrupted| == |share|
      invariant forall k :: 0 <= k < i ==>
                  corrupted[k] == (if k / chunkSize < |conds| && conds[k / chunkSize] then random[k] else share[k])
    {
      var idx := i / chunkSize;
      var b := if idx < |conds| && conds[idx] then random[i] else share[i];
      corrupted := corrupted[i := b];
      i := i + 1;
    }
  }

  /** Chunk view of `conditionally_corrupt_share`: every whole chunk `j` of the output is the
      random chunk when `conds[j]` holds and the untouched share chunk otherwise. */
  lemma CorruptShareChunks(share: Buf, conds: seq<bool>, random: Buf, chunkSize: nat, corrupted: Buf, j: nat)
    requires |random| == |share| && chunkSize > 0
    requires |corrupted| == |share|
    requires forall i :: 0 <= i < |share| ==>
               corrupted[i] == (if i / chunkSize < |conds| && conds[i / chunkSize] then random[i] else share[i])
    requires j < |conds| && (j + 1) * chunkSize <= |share|
    ensures conds[j] ==> corrupted[j * chunkSize .. (j + 1) * chunkSize] == random[j * chunkSize .. (j + 1) * chunkSize]
    ensures !conds[j] ==> corrupted[j * chunkSize .. (j + 1) * chunkSize] == share[j * chunkSize .. (j + 1) * chunkSize]
  {
    var lo := j * chunkSize;
    MulSucc(j, chunkSize);
    forall i | lo <= i < lo + chunkSize
      ensures corrupted[i] == (if conds[j] then random[i] else share[i])
    {
      DivUnique(i, chunkSize, j);
    }
  }

  /** The byte `conditionally_corrupt_share_parallel` writes at position `i`: the share byte
      (read cyclically) masked by zero where the condition holds and by `random[i]` elsewhere. */
  function CorruptedByte(share: Buf, conds: seq<bool>, random: Buf, i: nat): (r: byte)
    requires |random| == |conds| && i < |conds| && |share| > 0
    ensures conds[i] ==> r == share[i % |share|]
    ensures !conds[i] ==> r == random[i] ^ share[i % |share|]
  {
    (if conds[i] then 0 else random[i]) ^ share[i % |share|]
  }

  /** The whole corrupted buffer, position by position: the reference the threaded
      routine is measured against. */
  function ParallelCorrupted(share: Buf, conds: seq<bool>, random: Buf): (r: Buf)
    requires |random| == |conds| && (|share| > 0 || |conds| == 0)
    ensures |r| == |conds|
    ensures forall i :: 0 <= i < |conds| ==> r[i] == CorruptedByte(share, conds, random, i)
  {
    seq(|conds|, i requires 0 <= i < |conds| => CorruptedByte(share, conds, random, i))
  }

  /** One worker's segment: positions `[start, end)` in order. */
  function Worker(share: Buf, conds: seq<bool>, random: Buf, start: nat, end: nat): (r: Buf)
    requires |random| == |conds| && start <= end <= |conds| && (|share| > 0 || |conds| == 0)
    ensures |r| == end - start
    ensures forall k :: 0 <= k < end - start ==> r[k] == CorruptedByte(share, conds, random, start + k)
  {
    seq(end - start, k requires 0 <= k < end - start => CorruptedByte(share, conds, random, start + k))
  }

  /** Appending the segment `[start, end)` extends the prefix of the whole buffer. */
  lemma WorkerExtends(share: Buf, conds: seq<bool>, random: Buf, start: nat, end: nat)
    requires |random| == |conds| && start <= end <= |conds| && (|share| > 0 || |conds| == 0)
    ensures ParallelCorrupted(share, conds, random)[..start] + Worker(share, conds, random, start, end)
            == ParallelCorrupted(share, conds, random)[..end]
  {
  }

  /** `threads` ranges of `ceil(n / threads)` positions reach past the last position. */
  lemma CeilDivCovers(n: nat, threads: nat)
    requires threads >= 1
    ensures ((n + threads - 1) / threads) * threads >= n
    ensures n > 0 ==> (n + threads - 1) / threads >= 1
  {
    var q := (n + threads - 1) / threads;
    var r := (n + threads - 1) % threads;
    assert n + threads - 1 == q * threads + r;
  }

  /** Steps 3 and 4 of `conditionally_corrupt_share_parallel` for a given range size: one
      worker per non-empty range `[t * chunk, min((t + 1) * chunk, |conds|))`, stopping at
      the first empty range, and the segments appended in thread order. Whenever the
      `threads` ranges reach past the last position, the result is the whole buffer. */
  method RunWorkers(share: Buf, conds: seq<bool>, random: Buf, threads: nat, chunk: nat)
    returns (corrupted: Buf)
    requires |random| == |conds| && (|share| > 0 || |conds| == 0)
    requires chunk * threads >= |conds|
    ensures corrupted == ParallelCorrupted(share, conds, random)
  {
    var n := |conds|;
    corrupted := [];
    var t, start := 0, 0;
    while t < threads
      invariant 0 <= t <= threads && start == t * chunk
      invariant corrupted == ParallelCorrupted(share, conds, random)[..Min(start, n)]
    {
      var end := Min(start + chunk, n);
      if start >= end {
        break;
      }
      WorkerExtends(share, conds, random, start, end);
      corrupted := corrupted + Worker(share, conds, random, start, end);
      MulSucc(t, chunk);
      t, start := t + 1, start + chunk;
    }
  }

  /** `conditionally_corrupt_share_parallel`: the positions `[0, |conds|)` are split into
      ranges of `ceil(|conds| / threads)`, one worker per non-empty range, and the
      segments are appended in thread order. Whatever the thread count, every position is
      produced exactly once and in order, so the output has one byte per condition: the
      cyclically read share byte where the condition holds, that byte XOR `random[i]`
      elsewhere. The `chunk_size` argument is unused by the source and does not appear.
      The source reads `share[i % |share|]`, so a non-empty share is needed once there is
      a condition. A thread count of 0, which `hardware_concurrency` may report, is
      excluded: the source divides by it when sizing the ranges. */
  method ConditionallyCorruptShareParallel(share: Buf, conds: seq<bool>, random: Buf, threads: nat)
    returns (corrupted: Buf)
    requires threads >= 1
    requires |random| == |conds|
    requires |share| > 0 || |conds| == 0
    ensures |corrupted| == |conds|
    ensures forall i :: 0 <= i < |conds| ==>
              corrupted[i] == (if conds[i] then share[i % |share|] else random[i] ^ share[i % |share|])
    ensures corrupted == ParallelCorrupted(share, conds, random)
  {
    var chunk := (|conds| + threads - 1) / threads;
    CeilDivCovers(|conds|, threads);
    corrupted := RunWorkers(share, conds, random, threads, chunk);
  }
}

=== FILE: full_mesh.dfy ===
/** `FullMesh`: one FIFO queue of byte messages per (recipient, sender) pair, plus the
    per-party `Channels` endpoints handed out by `get_channels`. The blocking wait in
    `receive` becomes the precondition that the queue holds a message; latency and
    bandwidth sleeps and the wait-time statistics are not modelled. */
module FullMesh {
  import opened Bytes
  import opened Wire

  /** The shared network: `network[recipient][sender]`, where a pair never written to
      reads as the empty queue; and the number of `Channels` endpoints created. */
  datatype Mesh = Mesh(queues: map<(nat, nat), seq<Buf>>, channelCount: nat)

  /** The queue of messages from `sender` waiting for `recipient`. */
  function Queue(m: Mesh, recipient: nat, sender: nat): seq<Buf> {
    if (recipient, sender) in m.queues then m.queues[(recipient, sender)] else []
  }

  /** A mesh of `partyCount` endpoints as either constructor builds it: `FullMesh(party_count)`
      creates them directly, the three-argument constructor through `initialize_channels`.
      The queues live in a process-wide static map that no constructor touches, so "no
      message in flight" is that map's state at program start-up. */
  function NewMesh(partyCount: nat): (m: Mesh)
    ensures m.channelCount == partyCount
    ensures forall r: nat, s: nat :: Queue(m, r, s) == []
  {
    Mesh(map[], partyCount)
  }

  /** `send(sender, recipient, bytes)`: the message joins the back of its queue; every
      other queue and the endpoints are unchanged. */
  function Send(m: Mesh, sender: nat, recipient: nat, data: Buf): (r: Mesh)
    ensures Queue(r, recipient, sender) == Queue(m, recipient, sender) + [data]
    ensures forall a: nat, b: nat :: (a, b) != (recipient, sender) ==> Queue(r, a, b) == Queue(m, a, b)
    ensures r.channelCount == m.channelCount
  {
    Mesh(m.queues[(recipient, sender) := Queue(m, recipient, sender) + [data]], m.channelCount)
  }

  /** `receive(receiver, sender)` once a message is there: the front message is returned
      and removed; every other queue is unchanged. */
  function Receive(m: Mesh, receiver: nat, sender: nat): (r: (Buf, Mesh))
    requires |Queue(m, receiver, sender)| > 0
    ensures [r.0] + Queue(r.1, receiver, sender) == Queue(m, receiver, sender)
    ensures forall a: nat, b: nat :: (a, b) != (receiver, sender) ==> Queue(r.1, a, b) == Queue(m, a, b)
    ensures r.1.channelCount == m.channelCount
  {
    var q := Queue(m, receiver, sender);
    (q[0], Mesh(m.queues[(receiver, sender) := q[1..]], m.channelCount))
  }

  /** FIFO order per pair: sending `d` and then receiving returns `d` when the queue was
      empty, and otherwise returns the same front message as receiving first would, with
      `d` still waiting behind the rest. */
  lemma SendThenReceive(m: Mesh, sender: nat, recipient: nat, d: Buf)
    ensures var after := Receive(Send(m, sender, recipient, d), recipient, sender);
            if |Queue(m, recipient, sender)| == 0 then
              after.0 == d && Queue(after.1, recipient, sender) == []
            else
              var before := Receive(m, recipient, sender);
              after.0 == before.0
              && Queue(after.1, recipient, sender) == Queue(before.1, recipient, sender) + [d]
  {
    var q := Queue(m, recipient, sender);
    var after := Receive(Send(m, sender, recipient, d), recipient, sender);
    assert [after.0] + Queue(after.1, recipient, sender) == q + [d];
    if |q| > 0 {
      var before := Receive(m, recipient, sender);
      assert [before.0] + Queue(before.1, recipient, sender) == q;
      assert after.0 == (q + [d])[0];
      assert Queue(after.1, recipient, sender) == (q + [d])[1..];
      assert (q + [d])[1..] == q[1..] + [d];
      assert Queue(before.1, recipient, sender) == q[1..];
    }
  }

  /** Messages between distinct pairs never overtake or disturb one another. */
  lemma SendsToDifferentPairsCommute(m: Mesh, s1: nat, r1: nat, d1: Buf, s2: nat, r2: nat, d2: Buf)
    requires (r1, s1) != (r2, s2)
    ensures forall a: nat, b: nat :: Queue(Send(Send(m, s1, r1, d1), s2, r2, d2), a, b)
                        == Queue(Send(Send(m, s2, r2, d2), s1, r1, d1), a, b)
  {
  }

  /** `send(sender, recipient, std::vector<std::vector<size_t>>)`: the serialised lists. */
  function SendLists(m: Mesh, sender: nat, recipient: nat, lists: seq<seq<u64>>): (r: Mesh)
    requires Encodable(lists)
    ensures Queue(r, recipient, sender) == Queue(m, recipient, sender) + [EncodeLists(lists)]
  {
    Send(m, sender, recipient, EncodeLists(lists))
  }

  /** `receive(receiver, sender, std::vector<std::vector<size_t>>&)`: the front message,
      decoded. */
  function ReceiveLists(m: Mesh, receiver: nat, sender: nat): (r: (Option<seq<seq<u64>>>, Mesh))
    requires |Queue(m, receiver, sender)| > 0
    ensures r.0 == DecodeLists(Queue(m, receiver, sender)[0])
    ensures r.1 == Receive(m, receiver, sender).1
  {
    var (bytes, m') := Receive(m, receiver, sender);
    (DecodeLists(bytes), m')
  }

  /** Lists sent over an idle pair arrive intact. */
  lemma ListsRoundTrip(m: Mesh, sender: nat, recipient: nat, lists: seq<seq<u64>>)
    requires Encodable(lists) && Queue(m, recipient, sender) == []
    ensures ReceiveLists(SendLists(m, sender, recipient, lists), recipient, sender).0 == Some(lists)
  {
    DecodeEncodeLists(lists, []);
    assert EncodeLists(lists) + [] == EncodeLists(lists);
  }

  /** `send(sender, recipient, std::vector<bool>)`: the packed bits. */
  function SendBits(m: Mesh, sender: nat, recipient: nat, bits: seq<bool>): (r: Mesh)
    ensures Queue(r, recipient, sender) == Queue(m, recipient, sender) + [PackBits(bits)]
  {
    Send(m, sender, recipient, PackBits(bits))
  }

  /** `receive(receiver, sender, std::vector<bool>&)`: eight bools per received byte. */
  function ReceiveBits(m: Mesh, receiver: nat, sender: nat): (r: (seq<bool>, Mesh))
    requires |Queue(m, receiver, sender)| > 0
    ensures r.0 == UnpackBits(Queue(m, receiver, sender)[0])
    ensures |r.0| == 8 * |Queue(m, receiver, sender)[0]|
    ensures r.1 == Receive(m, receiver, sender).1
  {
    var (bytes, m') := Receive(m, receiver, sender);
    (UnpackBits(bytes), m')
  }

  /** Bits sent over an idle pair arrive as the same bits padded with `false` to a
      multiple of eight. */
  lemma BitsRoundTrip(m: Mesh, sender: nat, recipient: nat, bits: seq<bool>)
    requires Queue(m, recipient, sender) == []
    ensures var got := ReceiveBits(SendBits(m, sender, recipient, bits), recipient, sender).0;
            |got| == 8 * PackedSize(|bits|) && got[..|bits|] == bits
            && forall i :: |bits| <= i < |got| ==> !got[i]
  {
    UnpackPackBits(bits);
  }

  /** `get_channels(party_id)`: the party's endpoint, or `out_of_range` past the last one. */
  function GetChannels(m: Mesh, partyId: nat): (r: Option<nat>)
    ensures r.Some? <==> partyId < m.channelCount
    ensures r.Some? ==> r.value == partyId
  {
    if partyId >= m.channelCount then None else Some(partyId)
  }
}

=== FILE: mpsi.dfy ===
/** The protocol steps of `ApproximateMpsi` and `ApproximateMpsiParty` (approx_mpsi.cpp):
    bin-count rounding, the pairwise seed matrices, the server's aggregation and query
    evaluation, the querier's intersection extraction, role dispatch and output
    validation. Party 0 is the server, party 1 the querier and every other party a
    plain client; the querier is also a client. */
module Mpsi {
  import opened Bytes
  import opened SimdBytes
  import opened ZeroSharing
  import opened Sets

  // ---------------------------------------------------------------------------
  // bin count

  /** The constructor's `((minimum_bin_count + 63) / 64) * 64` in 64-bit arithmetic: the
      least multiple of 64 not below the minimum, except that a minimum within 63 of the
      top of the range wraps the sum and gives zero. */
  function BinCount(minimum: u64): (r: u64)
    ensures minimum <= U64_LIMIT - 64 ==> r % 64 == 0 && minimum <= r < minimum + 64
    ensures minimum > U64_LIMIT - 64 ==> r == 0
  {
    (((minimum + 63) % U64_LIMIT) / 64) * 64
  }

  /** No multiple of 64 at or above the minimum is smaller than the bin count. */
  lemma BinCountLeast(minimum: u64, k: nat)
    requires minimum <= U64_LIMIT - 64
    requires k % 64 == 0 && k >= minimum
    ensures BinCount(minimum) <= k
  {
  }

  // ---------------------------------------------------------------------------
  // seed matrices

  /** The seed the parties `i` and `j` share. `rnd(a, b)` for `a < b` stands for the fresh
      16 random bytes the source draws for the pair; either party reads the same seed. */
  function PairSeed(rnd: (nat, nat) -> Seed, i: nat, j: nat): Seed {
    if i <= j then rnd(i, j) else rnd(j, i)
  }

  /** The row of party `k` in the `(n - 1)`-square matrix `setup_parties` fills. */
  function DiagonalRow(n: nat, rnd: (nat, nat) -> Seed, k: nat): (row: seq<Seed>)
    requires n >= 1
  {
    seq(n - 1, c requires 0 <= c < n - 1 => if c + 1 == k then ZERO_SEED else PairSeed(rnd, k, c + 1))
  }

  /** `setup_parties(n)`: the server's row is empty; row `k` of every other party has
      `n - 1` seeds, where column `j - 1` holds the seed shared with party `j` and the
      column of the party itself keeps the value-initialised all-zero seed. */
  function SetupParties(n: nat, rnd: (nat, nat) -> Seed): (rows: seq<seq<Seed>>)
    requires n >= 1
    ensures |rows| == n && rows[0] == []
    ensures forall k :: 1 <= k < n ==> |rows[k]| == n - 1
    ensures forall k, c :: 1 <= k < n && 0 <= c < n - 1 ==>
              rows[k][c] == if c + 1 == k then ZERO_SEED else PairSeed(rnd, k, c + 1)
  {
    var clients: seq<seq<Seed>> := seq(n - 1, r requires 0 <= r < n - 1 => DiagonalRow(n, rnd, r + 1));
    [[]] + clients
  }

  /** The seed matrix is symmetric: what party `i` holds for `j`, party `j` holds for `i`. */
  lemma SetupPartiesSymmetric(n: nat, rnd: (nat, nat) -> Seed, i: nat, j: nat)
    requires n >= 1 && 1 <= i < n && 1 <= j < n
    ensures SetupParties(n, rnd)[i][j - 1] == SetupParties(n, rnd)[j][i - 1]
  {
  }

  /** Among the parties `1, 2, ...` other than `k`, the `c`-th one (counting from zero). */
  function Other(k: nat, c: nat): (r: nat)
    ensures r != k && r >= 1
    ensures r < k <==> c + 1 < k
  {
    if c + 1 < k then c + 1 else c + 2
  }

  /** Each row gets one more seed per entry of `xs`. */
  function AppendEach<T>(rows: seq<seq<T>>, xs: seq<T>): (r: seq<seq<T>>)
    requires |rows| == |xs|
    ensures |r| == |rows|
    ensures forall k :: 0 <= k < |rows| ==> r[k] == rows[k] + [xs[k]]
  {
    seq(|rows|, k requires 0 <= k < |rows| => rows[k] + [xs[k]])
  }

  /** The seeds party `m` shares with parties `1 .. m - 1`, in party order. */
  function NewcomerRow(m: nat, rnd: (nat, nat) -> Seed): (r: seq<Seed>)
    requires m >= 1
    ensures |r| == m - 1
    ensures forall c :: 0 <= c < m - 1 ==> r[c] == PairSeed(rnd, c + 1, m)
  {
    seq(m - 1, c requires 0 <= c < m - 1 => PairSeed(rnd, c + 1, m))
  }

  /** The pairwise seed rows of parties `1 .. m`, built one party at a time: a newcomer
      shares one seed with each party already present, who each append it, and its own
      row lists the same seeds. Row `k - 1` lists, in party order, the seeds party `k`
      shares with every other party. */
  function PairRows(m: nat, rnd: (nat, nat) -> Seed): (rows: seq<seq<Seed>>)
    ensures |rows| == m
    ensures forall k :: 0 <= k < m ==> |rows[k]| == m - 1
    ensures forall k, c :: 0 <= k < m && 0 <= c < m - 1 ==> rows[k][c] == PairSeed(rnd, k + 1, Other(k + 1, c))
    decreases m
  {
    if m == 0 then []
    else AppendEach(PairRows(m - 1, rnd), NewcomerRow(m, rnd)) + [NewcomerRow(m, rnd)]
  }

  lemma {:induction false} FlattenAppendEach<T>(rows: seq<seq<T>>, xs: seq<T>)
    requires |rows| == |xs|
    ensures multiset(Flatten(AppendEach(rows, xs))) == multiset(Flatten(rows)) + multiset(xs)
    decreases |rows|
  {
    if |rows| > 0 {
      var grown := AppendEach(rows, xs);
      assert grown[1..] == AppendEach(rows[1..], xs[1..]);
      FlattenAppendEach(rows[1..], xs[1..]);
      assert xs == [xs[0]] + xs[1..];
    }
  }

  /** Adding the same items twice keeps every count even. */
  lemma EvenAddTwice<T>(m: multiset<T>, r: multiset<T>)
    requires forall s :: m[s] % 2 == 0
    ensures forall s :: (m + r + r)[s] % 2 == 0
  {
    forall s
      ensures (m + r + r)[s] % 2 == 0
    {
      assert (m + r + r)[s] == m[s] + 2 * r[s];
    }
  }

  /** Growing rows by a newcomer whose seeds every existing row also appends adds the
      newcomer's seeds twice. */
  lemma GrowCounts<T>(prev: seq<seq<T>>, row: seq<T>)
    requires |prev| == |row|
    ensures multiset(Flatten(AppendEach(prev, row) + [row]))
            == multiset(Flatten(prev)) + multiset(row) + multiset(row)
  {
    var grown := AppendEach(prev, row);
    FlattenAppendEach(prev, row);
    FlattenConcat(grown, [row]);
    assert Flatten([row]) == row by {
      assert [row][1..] == [];
    }
  }

  /** ... so every seed's count stays even. */
  lemma GrowKeepsEven<T>(prev: seq<seq<T>>, row: seq<T>)
    requires |prev| == |row|
    requires forall s :: multiset(Flatten(prev))[s] % 2 == 0
    ensures forall s :: multiset(Flatten(AppendEach(prev, row) + [row]))[s] % 2 == 0
  {
    GrowCounts(prev, row);
    EvenAddTwice(multiset(Flatten(prev)), multiset(row));
  }

  /** Every seed occurs an even number of times across the pairwise rows. */
  lemma {:induction false} PairRowsEven(m: nat, rnd: (nat, nat) -> Seed)
    ensures forall s :: multiset(Flatten(PairRows(m, rnd)))[s] % 2 == 0
    decreases m
  {
    if m > 0 {
      PairRowsEven(m - 1, rnd);
      GrowKeepsEven(PairRows(m - 1, rnd), NewcomerRow(m, rnd));
    }
  }

  /** `setup_parties` without the diagonal: party `k` holds exactly the seeds it shares
      with the other `n - 2` clients. */
  function SetupPartiesCorrected(n: nat, rnd: (nat, nat) -> Seed): (rows: seq<seq<Seed>>)
    requires n >= 1
    ensures |rows| == n && rows[0] == []
    ensures forall k :: 1 <= k < n ==> |rows[k]| == n - 2
    ensures forall k, c :: 1 <= k < n && 0 <= c < n - 2 ==> rows[k][c] == PairSeed(rnd, k, Other(k, c))
  {
    [[]] + PairRows(n - 1, rnd)
  }

  /** The row `setup_parties` gives party `k` is the corrected row with the all-zero seed
      inserted at the party's own column. */
  lemma SetupPartiesDiagonal(n: nat, rnd: (nat, nat) -> Seed, k: nat)
    requires n >= 1 && 1 <= k < n
    ensures var c := SetupPartiesCorrected(n, rnd)[k];
            SetupParties(n, rnd)[k] == c[..k - 1] + [ZERO_SEED] + c[k - 1..]
  {
    var c := SetupPartiesCorrected(n, rnd)[k];
    var row := SetupParties(n, rnd)[k];
    var ins := c[..k - 1] + [ZERO_SEED] + c[k - 1..];
    forall i | 0 <= i < n - 1
      ensures row[i] == ins[i]
    {
      if i > k - 1 {
        assert ins[i] == c[i - 1];
      }
    }
  }

  /** With the corrected seed rows, the clients' zero-shares cancel. */
  lemma CorrectedSharesCancel(h: Xof, len: nat, n: nat, rnd: (nat, nat) -> Seed)
    requires n >= 1
    ensures XorFold(len, SharesOf(h, len, SetupPartiesCorrected(n, rnd)[1..])) == Zeros(len)
  {
    assert SetupPartiesCorrected(n, rnd)[1..] == PairRows(n - 1, rnd);
    PairRowsEven(n - 1, rnd);
    ZeroSharesCancel(h, len, PairRows(n - 1, rnd));
  }

  /** Each client's share under `setup_parties` is its corrected share XOR the expansion of
      the all-zero seed. */
  lemma DiagonalShare(h: Xof, len: nat, n: nat, rnd: (nat, nat) -> Seed, k: nat)
    requires n >= 1 && 1 <= k < n
    ensures ZeroShare(h, len, SetupParties(n, rnd)[k])
            == Xor(ZeroShare(h, len, SetupPartiesCorrected(n, rnd)[k]), h(ZERO_SEED, len))
  {
    var c := SetupPartiesCorrected(n, rnd)[k];
    SetupPartiesDiagonal(n, rnd, k);
    assert c == c[..k - 1] + c[k - 1..];
    assert multiset(SetupParties(n, rnd)[k]) == multiset(c + [ZERO_SEED]);
    ZeroShareOrderIndependent(h, len, SetupParties(n, rnd)[k], c + [ZERO_SEED]);
    ZeroShareSnoc(h, len, c, ZERO_SEED);
  }

  /** The clients' shares under `setup_parties`, one by one, are their corrected shares
      XOR the expansion of the all-zero seed. */
  lemma DiagonalShares(h: Xof, len: nat, n: nat, rnd: (nat, nat) -> Seed)
    requires n >= 1
    ensures var corrected := SharesOf(h, len, SetupPartiesCorrected(n, rnd)[1..]);
            SharesOf(h, len, SetupParties(n, rnd)[1..])
            == seq(n - 1, k requires 0 <= k < n - 1 => Xor(corrected[k], h(ZERO_SEED, len)))
  {
    var written := SharesOf(h, len, SetupParties(n, rnd)[1..]);
    var corrected := SharesOf(h, len, SetupPartiesCorrected(n, rnd)[1..]);
    forall k | 0 <= k < n - 1
      ensures written[k] == Xor(corrected[k], h(ZERO_SEED, len))
    {
      DiagonalShare(h, len, n, rnd, k + 1);
    }
  }

  /** As written, the clients' aggregate is the corrected aggregate XOR one expansion of
      the all-zero seed per client. */
  lemma WrittenAggregateSplit(h: Xof, len: nat, n: nat, rnd: (nat, nat) -> Seed)
    requires n >= 1
    ensures Uniform(len, seq(n - 1, _ => h(ZERO_SEED, len)))
    ensures XorFold(len, SharesOf(h, len, SetupParties(n, rnd)[1..]))
            == Xor(XorFold(len, SharesOf(h, len, SetupPartiesCorrected(n, rnd)[1..])),
                   XorFold(len, seq(n - 1, _ => h(ZERO_SEED, len))))
  {
    var corrected := SharesOf(h, len, SetupPartiesCorrected(n, rnd)[1..]);
    var repeated := seq(n - 1, _ => h(ZERO_SEED, len));
    DiagonalShares(h, len, n, rnd);
    assert SharesOf(h, len, SetupParties(n, rnd)[1..])
        == seq(n - 1, k requires 0 <= k < n - 1 => Xor(corrected[k], repeated[k]));
    XorFoldPairwise(len, corrected, repeated);
  }

  /** As written, `setup_parties` leaves the XOR of the clients' zero-shares equal to the
      expansion of the all-zero seed whenever the number of clients `n - 1` is odd. */
  lemma SetupPartiesAggregate(h: Xof, len: nat, n: nat, rnd: (nat, nat) -> Seed)
    requires n >= 1
    ensures XorFold(len, SharesOf(h, len, SetupParties(n, rnd)[1..]))
            == if (n - 1) % 2 == 0 then Zeros(len) else h(ZERO_SEED, len)
  {
    var h0 := h(ZERO_SEED, len);
    WrittenAggregateSplit(h, len, n, rnd);
    CorrectedSharesCancel(h, len, n, rnd);
    XorFoldRepeat(len, h0, n - 1);
    if (n - 1) % 2 == 0 {
      XorZero(Zeros(len));
    } else {
      XorZero(h0);
    }
  }

  /** An expansion that maps every seed to bytes of one. */
  function OnesXof(): (h: Xof)
    ensures forall s: Seed, n: nat :: h(s, n) == Filled(n, 1)
  {
    (s: Seed, n: nat) => Filled(n, 1)
  }

  /** Three clients under `setup_parties`: their shares do not cancel. */
  lemma SetupPartiesThreeClientsDoNotCancel(len: nat, rnd: (nat, nat) -> Seed)
    requires len > 0
    ensures XorFold(len, SharesOf(OnesXof(), len, SetupParties(4, rnd)[1..])) == Filled(len, 1)
    ensures XorFold(len, SharesOf(OnesXof(), len, SetupParties(4, rnd)[1..])) != Zeros(len)
  {
    SetupPartiesAggregate(OnesXof(), len, 4, rnd);
    assert Filled(len, 1)[0] != Zeros(len)[0];
  }

  // ---------------------------------------------------------------------------
  // setup_parties2

  /** Row `k` of `setup_parties2`: `f` seeds, zero except that a party `k < n` holds a
      fresh seed `rnd(k, c + 1)` at each column `c` with `k <= c < f - 1`. */
  function OneSidedRow(n: nat, f: nat, rnd: (nat, nat) -> Seed, k: nat): (r: seq<Seed>)
    ensures |r| == f
  {
    seq(f, c requires 0 <= c < f => if k < n && k <= c < f - 1 then rnd(k, c + 1) else ZERO_SEED)
  }

  /** `setup_parties2(n, f)` as written: a server row plus `n` client rows of `f` seeds.
      Party `i < n` stores the seed drawn for pair `(i, j)` at column `j - 1`, but the
      mirrored write to party `j` is commented out, so no client ever holds a seed drawn
      for a pair it joins as the higher index: every column before a party's own index,
      the last column and the whole last row stay zero. */
  function SetupParties2(n: nat, f: nat, rnd: (nat, nat) -> Seed): (rows: seq<seq<Seed>>)
    ensures |rows| == n + 1 && rows[0] == []
    ensures forall k :: 1 <= k <= n ==> |rows[k]| == f
    ensures forall i, j :: 1 <= i < n && i < j < f ==> rows[i][j - 1] == rnd(i, j)
    ensures forall k, c :: 1 <= k <= n && 0 <= c < f && (c < k || c == f - 1 || k == n) ==>
              rows[k][c] == ZERO_SEED
  {
    var clients: seq<seq<Seed>> := seq(n, r requires 0 <= r < n => OneSidedRow(n, f, rnd, r + 1));
    [[]] + clients
  }

  /** An expansion that maps the all-zero seed to zero bytes and every other seed to bytes
      of one. */
  function ZeroOrOnes(s: Seed, n: nat): (r: Buf)
    ensures |r| == n
  {
    if s == ZERO_SEED then Zeros(n) else Filled(n, 1)
  }

  function ZeroOrOnesXof(): (h: Xof)
    ensures forall s: Seed, n: nat :: h(s, n) == if s == ZERO_SEED then Zeros(n) else Filled(n, 1)
  {
    (s: Seed, n: nat) => ZeroOrOnes(s, n)
  }

  /** Two clients with `f = 3` under `setup_parties2`: only party 1 holds the one drawn
      seed, so the clients' zero-shares XOR to that seed's expansion instead of zero. */
  lemma SetupParties2SharesDoNotCancel(len: nat, rnd: (nat, nat) -> Seed)
    requires len > 0 && rnd(1, 2) != ZERO_SEED
    ensures SetupParties2(2, 3, rnd)
            == [[], [ZERO_SEED, rnd(1, 2), ZERO_SEED], [ZERO_SEED, ZERO_SEED, ZERO_SEED]]
    ensures XorFold(len, SharesOf(ZeroOrOnesXof(), len, SetupParties2(2, 3, rnd)[1..]))
            == Filled(len, 1)
  {
    var h := ZeroOrOnesXof();
    var rows := SetupParties2(2, 3, rnd);
    var z := Zeros(len);
    var one := Filled(len, 1);
    assert rows[1][0] == ZERO_SEED && rows[1][1] == rnd(1, 2) && rows[1][2] == ZERO_SEED;
    assert rows[2][0] == ZERO_SEED && rows[2][1] == ZERO_SEED && rows[2][2] == ZERO_SEED;
    assert rows[1] == [ZERO_SEED, rnd(1, 2), ZERO_SEED];
    assert rows[2] == [ZERO_SEED, ZERO_SEED, ZERO_SEED];
    assert rows == [[], [ZERO_SEED, rnd(1, 2), ZERO_SEED], [ZERO_SEED, ZERO_SEED, ZERO_SEED]];
    assert Map(Expand(h, len), rows[1]) == [z, one, z];
    assert Map(Expand(h, len), rows[2]) == [z, z, z];
    XorFoldThree(len, z, one, z);
    XorFoldThree(len, z, z, z);
    XorZero(one);
    XorZero(z);
    var shares := SharesOf(h, len, rows[1..]);
    assert shares == [one, z];
    assert shares[..1][..0] == [];
    assert XorFold(len, shares[..1]) == one;
  }

  // ---------------------------------------------------------------------------
  // query evaluation (server)

  /** Chunk `i` of the aggregated share: its bytes `40 i .. 40 i + 40`, or zero bytes past
      the end. */
  function Chunk(agg: Buf, i: nat): (r: Buf)
    ensures |r| == SHARE_BYTE_COUNT
    ensures (i + 1) * SHARE_BYTE_COUNT <= |agg| ==>
              r == agg[i * SHARE_BYTE_COUNT .. (i + 1) * SHARE_BYTE_COUNT]
  {
    if (i + 1) * SHARE_BYTE_COUNT <= |agg| then agg[i * SHARE_BYTE_COUNT .. (i + 1) * SHARE_BYTE_COUNT]
    else Zeros(SHARE_BYTE_COUNT)
  }

  function ChunkOf(agg: Buf): nat -> Buf {
    (i: nat) => Chunk(agg, i)
  }

  lemma ChunksAreShares(agg: Buf, pattern: seq<nat>)
    ensures MapsTo(ChunkOf(agg), SHARE_BYTE_COUNT, pattern)
  {
  }

  /** The XOR of the chunks a pattern names, zero bytes for the empty pattern. */
  function PatternXor(agg: Buf, pattern: seq<nat>): (r: Buf)
    ensures |r| == SHARE_BYTE_COUNT
  {
    ChunksAreShares(agg, pattern);
    XorFold(SHARE_BYTE_COUNT, Map(ChunkOf(agg), pattern))
  }

  /** A pattern matches when the XOR of its chunks is all zero. */
  predicate Matches(agg: Buf, pattern: seq<nat>) {
    AllZero(PatternXor(agg, pattern))
  }

  /** `compute_query_results`: the aggregated share cut into 40-byte chunks; for each
      pattern, a byte-wise XOR accumulator over the chunks it indexes, and `true` exactly
      when the accumulator ends all zero. The source indexes the chunk array unchecked,
      so every index must name a chunk. */
  method ComputeQueryResults(patterns: seq<seq<nat>>, agg: Buf) returns (results: seq<bool>)
    requires |agg| % SHARE_BYTE_COUNT == 0
    requires forall k, i :: 0 <= k < |patterns| && 0 <= i < |patterns[k]| ==>
               patterns[k][i] < |agg| / SHARE_BYTE_COUNT
    ensures |results| == |patterns|
    ensures forall k :: 0 <= k < |patterns| ==> (results[k] <==> Matches(agg, patterns[k]))
    ensures forall k :: 0 <= k < |patterns| && patterns[k] == [] ==> results[k]
  {
    var shares := ToByteChunks(agg, SHARE_BYTE_COUNT);
    results := [];
    for k := 0 to |patterns|
      invariant |results| == k
      invariant forall j :: 0 <= j < k ==> (results[j] <==> Matches(agg, patterns[j]))
    {
      var pattern := patterns[k];
      var acc := Zeros(SHARE_BYTE_COUNT);
      for idx := 0 to |pattern|
        invariant acc == PatternXor(agg, pattern[..idx])
      {
        var index := pattern[idx];
        ToByteChunksSlice(agg, SHARE_BYTE_COUNT, index);
        ChunksAreShares(agg, pattern[..idx]);
        XorFoldMapSnoc(ChunkOf(agg), SHARE_BYTE_COUNT, pattern[..idx], index);
        assert pattern[..idx + 1] == pattern[..idx] + [index];
        acc := Xor(acc, shares[index]);
      }
      assert pattern[..|pattern|] == pattern;
      results := results + [AllZero(acc)];
    }
    EmptyPatternMatches(agg);
  }

  /** The empty pattern XORs no chunk and always matches. */
  lemma EmptyPatternMatches(agg: Buf)
    ensures Matches(agg, [])
  {
    assert Map(ChunkOf(agg), []) == [];
  }

  /** A one-index pattern matches exactly when its chunk is all zero. */
  lemma SingleIndexMatches(agg: Buf, i: nat)
    ensures Matches(agg, [i]) <==> AllZero(Chunk(agg, i))
  {
    var c := Chunk(agg, i);
    assert Map(ChunkOf(agg), [i]) == [c];
    assert [c][..0] == [];
    XorZero(c);
    assert XorFold(SHARE_BYTE_COUNT, [c]) == c;
    assert PatternXor(agg, [i]) == c;
  }

  /** The verdict ignores the order of a pattern's indices. */
  lemma MatchesOrderIndependent(agg: Buf, p: seq<nat>, q: seq<nat>)
    requires multiset(p) == multiset(q)
    ensures Matches(agg, p) <==> Matches(agg, q)
  {
    ChunksAreShares(agg, p);
    ChunksAreShares(agg, q);
    XorFoldPermutation(ChunkOf(agg), SHARE_BYTE_COUNT, p, q);
  }

  /** A pattern in which every index occurs an even number of times matches whatever the
      share holds: repeated hash positions cancel. */
  lemma PairedIndicesMatch(agg: Buf, p: seq<nat>)
    requires forall i :: multiset(p)[i] % 2 == 0
    ensures Matches(agg, p)
  {
    ChunksAreShares(agg, p);
    XorFoldEvenCancels(ChunkOf(agg), SHARE_BYTE_COUNT, p);
  }

  /** A pattern whose every chunk is all zero matches. */
  lemma ZeroChunksMatch(agg: Buf, p: seq<nat>)
    requires forall i :: 0 <= i < |p| ==> AllZero(Chunk(agg, p[i]))
    ensures Matches(agg, p)
  {
    var bufs := Map(ChunkOf(agg), p);
    forall j | 0 <= j < SHARE_BYTE_COUNT
      ensures PatternXor(agg, p)[j] == 0
    {
      XorFoldZeroColumn(SHARE_BYTE_COUNT, bufs, j);
    }
  }

  // ---------------------------------------------------------------------------
  // intersection extraction (querier)

  /** `extract_intersection`: walk the input's elements in iteration order and insert
      element `i` into a fresh set when `results[i]` holds. The source indexes the results
      unchecked, so there must be one per element. */
  method ExtractIntersection(input: Set, results: seq<bool>) returns (output: Set)
    requires |results| >= |input.elems|
    ensures Valid(output)
    ensures forall x :: x in Contents(output) <==>
              exists i :: 0 <= i < |input.elems| && results[i] && input.elems[i] == x
    ensures Contents(output) <= Contents(input)
    ensures (forall i :: 0 <= i < |input.elems| ==> results[i]) ==> Contents(output) == Contents(input)
    ensures Valid(input) ==>
              forall i :: 0 <= i < |input.elems| ==> (input.elems[i] in Contents(output) <==> results[i])
  {
    output := EMPTY;
    for i := 0 to |input.elems|
      invariant Valid(output)
      invariant forall x :: x in Contents(output) <==>
                  exists j :: 0 <= j < i && results[j] && input.elems[j] == x
    {
      if results[i] {
        output := Insert(output, input.elems[i]);
      }
    }
    ExtractedElements(input, results, output);
  }

  /** What an extraction with the loop's characterisation implies: a subset of the input,
      all of it when every result is `true`, and for a well-formed input exactly the
      elements whose result is `true`. */
  lemma ExtractedElements(input: Set, results: seq<bool>, output: Set)
    requires |results| >= |input.elems|
    requires forall x :: x in Contents(output) <==>
               exists i :: 0 <= i < |input.elems| && results[i] && input.elems[i] == x
    ensures Contents(output) <= Contents(input)
    ensures (forall i :: 0 <= i < |input.elems| ==> results[i]) ==> Contents(output) == Contents(input)
    ensures Valid(input) ==>
              forall i :: 0 <= i < |input.elems| ==> (input.elems[i] in Contents(output) <==> results[i])
  {
    forall x | x in Contents(output)
      ensures x in Contents(input)
    {
      var j :| 0 <= j < |input.elems| && results[j] && input.elems[j] == x;
    }
    if forall i :: 0 <= i < |input.elems| ==> results[i] {
      forall x | x in Contents(input)
        ensures x in Contents(output)
      {
        var j :| 0 <= j < |input.elems| && input.elems[j] == x;
      }
    }
    if Valid(input) {
      forall i | 0 <= i < |input.elems|
        ensures input.elems[i] in Contents(output) <==> results[i]
      {
        if input.elems[i] in Contents(output) {
          var j :| 0 <= j < |input.elems| && results[j] && input.elems[j] == input.elems[i];
          assert j == i;
        }
      }
    }
  }

  // ---------------------------------------------------------------------------
  // aggregation (server)

  /** The non-empty messages, in sender order. */
  function NonEmpty(msgs: seq<Buf>): (r: seq<Buf>)
    ensures |r| <= |msgs|
    decreases |msgs|
  {
    if |msgs| == 0 then []
    else if |msgs[|msgs| - 1]| > 0 then NonEmpty(msgs[..|msgs| - 1]) + [msgs[|msgs| - 1]]
    else NonEmpty(msgs[..|msgs| - 1])
  }

  /** Exactly the non-empty messages are kept. */
  lemma {:induction false} NonEmptyMembers(msgs: seq<Buf>)
    ensures forall m :: m in NonEmpty(msgs) <==> m in msgs && |m| > 0
    decreases |msgs|
  {
    if |msgs| > 0 {
      var init := msgs[..|msgs| - 1];
      NonEmptyMembers(init);
      assert msgs == init + [msgs[|msgs| - 1]];
    }
  }

  /** Without empty messages nothing is dropped. */
  lemma {:induction false} NonEmptyAll(msgs: seq<Buf>)
    requires forall k :: 0 <= k < |msgs| ==> |msgs[k]| > 0
    ensures NonEmpty(msgs) == msgs
    decreases |msgs|
  {
    if |msgs| > 0 {
      NonEmptyAll(msgs[..|msgs| - 1]);
      assert msgs[..|msgs| - 1] + [msgs[|msgs| - 1]] == msgs;
    }
  }

  /** The non-empty messages all have one length: `^=` asserts equal sizes. */
  predicate SameWidth(msgs: seq<Buf>) {
    forall i, j :: 0 <= i < |msgs| && 0 <= j < |msgs| && |msgs[i]| > 0 && |msgs[j]| > 0 ==>
      |msgs[i]| == |msgs[j]|
  }

  /** What the server should hold after aggregation: the empty buffer when no client sent
      anything, otherwise the XOR of the non-empty messages. */
  function Aggregate(msgs: seq<Buf>): (r: Buf)
    requires SameWidth(msgs)
  {
    var kept := NonEmpty(msgs);
    if |kept| == 0 then []
    else
      NonEmptyMembers(msgs);
      assert forall k :: 0 <= k < |kept| ==> kept[k] in msgs;
      XorFold(|kept[0]|, kept)
  }

  /** The receiving loop of `run_server_approx`: each message from parties `1 .. n - 1`
      that is not empty is kept, in sender order. */
  method KeepNonEmpty(msgs: seq<Buf>) returns (received: seq<Buf>)
    ensures received == NonEmpty(msgs)
  {
    received := [];
    for i := 0 to |msgs|
      invariant received == NonEmpty(msgs[..i])
    {
      assert msgs[..i + 1][..i] == msgs[..i];
      if |msgs[i]| > 0 {
        received := received + [msgs[i]];
      }
    }
    assert msgs[..|msgs|] == msgs;
  }

  /** The aggregation loop: start from the first kept share and `^=` the others in order. */
  method FoldShares(n: nat, received: seq<Buf>) returns (agg: Buf)
    requires |received| > 0 && Uniform(n, received)
    ensures agg == XorFold(n, received)
  {
    agg := received[0];
    assert received[..1][..0] == [];
    XorZero(received[0]);
    for i := 1 to |received|
      invariant agg == XorFold(n, received[..i])
    {
      assert received[..i + 1][..i] == received[..i];
      agg := Xor(agg, received[i]);
    }
    assert received[..|received|] == received;
  }

  /** The aggregate is empty exactly when every message was. */
  lemma AggregateEmpty(msgs: seq<Buf>)
    requires SameWidth(msgs)
    ensures |Aggregate(msgs)| == 0 <==> forall k :: 0 <= k < |msgs| ==> |msgs[k]| == 0
  {
    var kept := NonEmpty(msgs);
    NonEmptyMembers(msgs);
    if |kept| > 0 {
      assert kept[0] in msgs;
    }
    if exists k :: 0 <= k < |msgs| && |msgs[k]| > 0 {
      var k :| 0 <= k < |msgs| && |msgs[k]| > 0;
      assert msgs[k] in kept;
    }
  }

  /** The first half of `run_server_approx`: the shares received from the clients,
      aggregated. */
  method AggregateShares(msgs: seq<Buf>) returns (agg: Buf)
    requires SameWidth(msgs)
    ensures agg == Aggregate(msgs)
    ensures |agg| == 0 <==> forall k :: 0 <= k < |msgs| ==> |msgs[k]| == 0
  {
    var received := KeepNonEmpty(msgs);
    agg := [];
    if |received| > 0 {
      NonEmptyMembers(msgs);
      assert forall k :: 0 <= k < |received| ==> received[k] in msgs;
      agg := FoldShares(|received[0]|, received);
    }
    AggregateEmpty(msgs);
  }

  /** When every client sent a share of width `w`, the aggregate is the XOR of them all. */
  lemma AggregateAllPresent(msgs: seq<Buf>, w: nat)
    requires w > 0 && |msgs| > 0 && Uniform(w, msgs)
    ensures SameWidth(msgs)
    ensures Aggregate(msgs) == XorFold(w, msgs)
  {
    NonEmptyAll(msgs);
  }

  // ---------------------------------------------------------------------------
  // role dispatch and output validation

  datatype Role = Server | Querier | Client

  /** `run`'s switch on the party id. */
  function RoleOf(id: nat): (r: Role)
    ensures r == Server <==> id == 0
    ensures r == Querier <==> id == 1
    ensures r == Client <==> id >= 2
  {
    if id == 0 then Server else if id == 1 then Querier else Client
  }

  /** The `thread_data` record a party fills in when it finishes. */
  datatype ThreadData = ThreadData(id: nat, output: Option<Set>, isCompleted: bool)

  /** The end of `run`: `output` starts as an empty set and only the querier replaces
      it, so every party reports a set, and the thread record mirrors the result. */
  function RunResult(id: nat, querierOutput: Set): (r: (Option<Set>, ThreadData))
    ensures r.0.Some? && r.1.output == r.0
    ensures r.1.id == id && r.1.isCompleted
    ensures RoleOf(id) == Querier ==> r.0.value == querierOutput
    ensures RoleOf(id) != Querier ==> Contents(r.0.value) == {}
  {
    var output := if RoleOf(id) == Querier then querierOutput else EMPTY;
    (Some(output), ThreadData(id, Some(output), true))
  }

  /** The present sets among `xs`, in order. */
  function PresentSets(xs: seq<Option<Set>>): (r: seq<Set>)
    ensures forall s :: s in r <==> Some(s) in xs
    decreases |xs|
  {
    if |xs| == 0 then []
    else (if xs[0].Some? then [xs[0].value] else []) + PresentSets(xs[1..])
  }

  /** The inputs `validate_outputs` intersects: every present one after the first. */
  function ClientInputs(inputs: seq<Option<Set>>): (r: seq<Set>)
    ensures forall s :: s in r <==> exists k :: 1 <= k < |inputs| && inputs[k] == Some(s)
  {
    if |inputs| == 0 then []
    else
      var r := PresentSets(inputs[1..]);
      assert forall s :: Some(s) in inputs[1..] <==> exists k :: 1 <= k < |inputs| && inputs[k] == Some(s);
      r
  }

  /** `validate_outputs`: the querier (index 1) must report a set, equal in size and
      elements to the intersection of the present inputs after the first. */
  function ValidateOutputs(inputs: seq<Option<Set>>, outputs: seq<Option<Set>>): (r: bool)
    requires |outputs| >= 2
    ensures r ==> outputs[1].Some?
  {
    outputs[1].Some? && Equal(Intersection(ClientInputs(inputs)), outputs[1].value)
  }

  /** The expected intersection holds the elements common to every present input after
      the first, provided there is one. */
  lemma ClientIntersection(inputs: seq<Option<Set>>, x: Element)
    ensures x in Contents(Intersection(ClientInputs(inputs))) <==>
              (exists k :: 1 <= k < |inputs| && inputs[k].Some?)
              && forall k :: 1 <= k < |inputs| && inputs[k].Some? ==> x in Contents(inputs[k].value)
  {
    var sets := ClientInputs(inputs);
    if exists k :: 1 <= k < |inputs| && inputs[k].Some? {
      var k :| 1 <= k < |inputs| && inputs[k].Some?;
      assert inputs[k].value in sets;
    }
    if x in Contents(Intersection(sets)) {
      assert sets[0] in sets;
      var k0 :| 1 <= k0 < |inputs| && inputs[k0] == Some(sets[0]);
      assert inputs[k0].Some?;
      forall k | 1 <= k < |inputs| && inputs[k].Some?
        ensures x in Contents(inputs[k].value)
      {
        assert inputs[k].value in sets;
      }
    }
    if (exists k :: 1 <= k < |inputs| && inputs[k].Some?)
       && forall k :: 1 <= k < |inputs| && inputs[k].Some? ==> x in Contents(inputs[k].value) {
      var k :| 1 <= k < |inputs| && inputs[k].Some?;
      assert inputs[k] == Some(inputs[k].value);
      assert inputs[k].value in sets;
      assert |sets| > 0;
      forall j | 0 <= j < |sets|
        ensures x in Contents(sets[j])
      {
        assert sets[j] in sets;
        var k2 :| 1 <= k2 < |inputs| && inputs[k2] == Some(sets[j]);
        assert inputs[k2].Some?;
      }
    }
  }

  /** For well-formed sets, validation accepts exactly when the querier's set holds the
      elements common to every present input after the first, and no others. */
  lemma ValidateMeansIntersection(inputs: seq<Option<Set>>, outputs: seq<Option<Set>>)
    requires |outputs| >= 2 && outputs[1].Some? && Valid(outputs[1].value)
    requires forall k :: 1 <= k < |inputs| && inputs[k].Some? ==> Valid(inputs[k].value)
    ensures ValidateOutputs(inputs, outputs) <==>
              forall x :: x in Contents(outputs[1].value) <==>
                (exists k :: 1 <= k < |inputs| && inputs[k].Some?)
                && forall k :: 1 <= k < |inputs| && inputs[k].Some? ==> x in Contents(inputs[k].value)
  {
    var sets := ClientInputs(inputs);
    var expected := Intersection(sets);
    if |sets| > 0 {
      assert sets[0] in sets;
    }
    EqualIsSetEquality(expected, outputs[1].value);
    forall x {
      ClientIntersection(inputs, x);
    }
  }
}

=== FILE: pipeline.dfy ===
/** One run of approximate MPSI end to end (approx_mpsi.cpp, `run_client_approx`,
    `run_server_approx`, `run_querier_approx`). As written, the client corrupts one byte
    per bit of a filter whose length has nothing to do with `bin_count`, while the server
    reads 40-byte chunks indexed by bin; this module shows the resulting out-of-range
    read and proves the repaired protocol complete: every element common to all inputs
    reaches the querier's output, and nothing outside the querier's own set does. */
module Pipeline {
  import opened Bytes
  import opened SimdBytes
  import opened ZeroSharing
  import opened Corruption
  import opened Sets
  import opened Wire
  import opened Mpsi

  // ---------------------------------------------------------------------------
  // as written

  /** `run_client_approx` as written: a zero-share of `40 * bin_count` bytes, the
      `to_bloom_filter` bits, and the parallel corruption, which yields one byte per
      filter bit. The message length depends only on the set's size. */
  method RunClientAsWritten(h: Xof, seeds: seq<Seed>, s: Set, hash: IndexHash, binCount: nat,
                            hashCount: nat, random: Buf, threads: nat)
    returns (msg: Buf)
    requires |seeds| >= 1 && binCount > 0 && threads >= 1
    requires |random| == AlignToShare(BitArraySize(|s.elems|))
    ensures |msg| == AlignToShare(BitArraySize(|s.elems|))
    ensures msg == ParallelCorrupted(ZeroShare(h, SHARE_BYTE_COUNT * binCount, seeds),
                                     ToBloomFilter(s, hash, hashCount), random)
  {
    var share := CreateZeroShareNoResize(h, seeds, SHARE_BYTE_COUNT * binCount);
    var filter := ToBloomFilter(s, hash, hashCount);
    msg := ConditionallyCorruptShareParallel(share, filter, random, threads);
  }

  /** A client holding one element whose every digest is the word 599, with 512 bins and
      one hash function: its message is 600 bytes, 15 chunks of 40, yet the querier's
      pattern for that element names bin 87, far past the last chunk the server holds,
      so `compute_query_results` reads outside the chunk array. */
  method LiveQueryOutOfRange(h: Xof, seeds: seq<Seed>, e: Element, random: Buf, threads: nat)
    returns (msg: Buf, pattern: seq<nat>)
    requires |seeds| >= 1 && threads >= 1 && |random| == 600
    ensures |msg| == 600 && |msg| / SHARE_BYTE_COUNT == 15
    ensures pattern == [87] && pattern[0] >= |msg| / SHARE_BYTE_COUNT
  {
    var hash := ConstantHash(599);
    var s := Set([e]);
    BitArraySizeOne();
    ConstantHashValue(599, e, 0);
    FilterAndQueryModuliDisagree(hash, e);
    msg := RunClientAsWritten(h, seeds, s, hash, 512, 1, random, threads);
    pattern := SetIndexLists(s, hash, 512, 1)[0];
  }

  // ---------------------------------------------------------------------------
  // corrected client

  /** Each filter bit stretched over one 40-byte chunk, so that bin `b` governs bytes
      `40 b .. 40 b + 40` of the share. */
  function Spread(bits: seq<bool>): (r: seq<bool>)
    ensures |r| == SHARE_BYTE_COUNT * |bits|
    ensures forall i :: 0 <= i < |r| ==> r[i] == bits[i / SHARE_BYTE_COUNT]
  {
    seq(SHARE_BYTE_COUNT * |bits|, i requires 0 <= i < SHARE_BYTE_COUNT * |bits| => bits[i / SHARE_BYTE_COUNT])
  }

  /** Byte `j` of chunk `b` sits at position `40 b + j`. */
  lemma ChunkByte(m: Buf, b: nat, j: nat)
    requires (b + 1) * SHARE_BYTE_COUNT <= |m| && j < SHARE_BYTE_COUNT
    ensures b * SHARE_BYTE_COUNT + j < |m|
    ensures Chunk(m, b)[j] == m[b * SHARE_BYTE_COUNT + j]
  {
    MulSucc(b, SHARE_BYTE_COUNT);
  }

  /** Position `40 b + j` of a corrupted share, for a bin `b` of the filter. */
  lemma CorruptedByteInBin(share: Buf, bits: seq<bool>, random: Buf, b: nat, j: nat)
    requires |share| == SHARE_BYTE_COUNT * |bits| && |random| == |share| && b < |bits| && j < SHARE_BYTE_COUNT
    ensures b * SHARE_BYTE_COUNT + j < |share|
    ensures var i := b * SHARE_BYTE_COUNT + j;
            ParallelCorrupted(share, Spread(bits), random)[i]
            == if bits[b] then share[i] else random[i] ^ share[i]
  {
    var i := b * SHARE_BYTE_COUNT + j;
    MulSucc(b, SHARE_BYTE_COUNT);
    MulMono(b + 1, |bits|, SHARE_BYTE_COUNT);
    DivUnique(i, SHARE_BYTE_COUNT, b);
    var conds := Spread(bits);
    assert conds[i] == bits[b];
    ModBelow(i, |share|);
    assert ParallelCorrupted(share, conds, random)[i] == CorruptedByte(share, conds, random, i);
  }

  lemma ModBelow(i: nat, n: nat)
    requires i < n
    ensures i % n == i
  {
  }

  /** Chunk `b` of a corrupted share is the share's own chunk when bin `b` is set and the
      share's chunk masked by the random chunk otherwise. */
  lemma CorruptedChunk(share: Buf, bits: seq<bool>, random: Buf, b: nat)
    requires |share| == SHARE_BYTE_COUNT * |bits| && |random| == |share| && b < |bits|
    ensures (b + 1) * SHARE_BYTE_COUNT <= |share|
    ensures bits[b] ==> Chunk(ParallelCorrupted(share, Spread(bits), random), b) == Chunk(share, b)
    ensures !bits[b] ==>
              Chunk(ParallelCorrupted(share, Spread(bits), random), b) == Xor(Chunk(share, b), Chunk(random, b))
  {
    MulMono(b + 1, |bits|, SHARE_BYTE_COUNT);
    var msg := ParallelCorrupted(share, Spread(bits), random);
    var expected := if bits[b] then Chunk(share, b) else Xor(Chunk(share, b), Chunk(random, b));
    forall j | 0 <= j < SHARE_BYTE_COUNT
      ensures Chunk(msg, b)[j] == expected[j]
    {
      CorruptedByteInBin(share, bits, random, b, j);
      ChunkByte(msg, b, j);
      ChunkByte(share, b, j);
      ChunkByte(random, b, j);
    }
  }

  /** The corrected client: the zero-share over its seeds, the `bin_count`-bit filter of
      `to_bloom_filter2` spread to one chunk per bin, and the parallel corruption. Every
      set bin carries the party's zero-share chunk; every other bin is masked. */
  method RunClient(h: Xof, seeds: seq<Seed>, s: Set, hash: IndexHash, binCount: nat, hashCount: nat,
                   random: Buf, threads: nat)
    returns (msg: Buf)
    requires |seeds| >= 1 && binCount > 0 && threads >= 1
    requires |random| == SHARE_BYTE_COUNT * binCount
    ensures |msg| == SHARE_BYTE_COUNT * binCount
    ensures forall b :: 0 <= b < binCount ==>
              var share := ZeroShare(h, SHARE_BYTE_COUNT * binCount, seeds);
              if ToBloomFilter2(s, hash, binCount, hashCount)[b] then Chunk(msg, b) == Chunk(share, b)
              else Chunk(msg, b) == Xor(Chunk(share, b), Chunk(random, b))
  {
    var share := CreateZeroShareNoResize(h, seeds, SHARE_BYTE_COUNT * binCount);
    var filter := ToBloomFilter2(s, hash, binCount, hashCount);
    msg := ConditionallyCorruptShareParallel(share, Spread(filter), random, threads);
    forall b | 0 <= b < binCount
      ensures if filter[b] then Chunk(msg, b) == Chunk(share, b)
              else Chunk(msg, b) == Xor(Chunk(share, b), Chunk(random, b))
    {
      CorruptedChunk(share, filter, random, b);
    }
  }

  // ---------------------------------------------------------------------------
  // aggregate chunks

  /** When every client message agrees with its zero-share on chunk `b` and the
      zero-shares cancel, chunk `b` of the aggregate is all zero. */
  lemma AggregateChunkZero(h: Xof, width: nat, rows: seq<seq<Seed>>, msgs: seq<Buf>, b: nat)
    requires Uniform(width, msgs) && |msgs| == |rows| && (b + 1) * SHARE_BYTE_COUNT <= width
    requires XorFold(width, SharesOf(h, width, rows)) == Zeros(width)
    requires forall c :: 0 <= c < |msgs| ==> Chunk(msgs[c], b) == Chunk(ZeroShare(h, width, rows[c]), b)
    ensures AllZero(Chunk(XorFold(width, msgs), b))
  {
    var shares := SharesOf(h, width, rows);
    var agg := XorFold(width, msgs);
    forall j | 0 <= j < SHARE_BYTE_COUNT
      ensures Chunk(agg, b)[j] == 0
    {
      var i := b * SHARE_BYTE_COUNT + j;
      ChunkByte(agg, b, j);
      ColumnAgrees(h, width, rows, msgs, b, j);
      XorFoldColumn(width, msgs, shares, i);
    }
  }

  /** Byte `j` of chunk `b`: each message agrees with its zero-share there. */
  lemma ColumnAgrees(h: Xof, width: nat, rows: seq<seq<Seed>>, msgs: seq<Buf>, b: nat, j: nat)
    requires Uniform(width, msgs) && |msgs| == |rows| && (b + 1) * SHARE_BYTE_COUNT <= width
    requires j < SHARE_BYTE_COUNT
    requires forall c :: 0 <= c < |msgs| ==> Chunk(msgs[c], b) == Chunk(ZeroShare(h, width, rows[c]), b)
    ensures b * SHARE_BYTE_COUNT + j < width
    ensures forall c :: 0 <= c < |msgs| ==>
              msgs[c][b * SHARE_BYTE_COUNT + j] == SharesOf(h, width, rows)[c][b * SHARE_BYTE_COUNT + j]
  {
    MulSucc(b, SHARE_BYTE_COUNT);
    var shares := SharesOf(h, width, rows);
    forall c | 0 <= c < |msgs|
      ensures msgs[c][b * SHARE_BYTE_COUNT + j] == shares[c][b * SHARE_BYTE_COUNT + j]
    {
      ChunkByte(msgs[c], b, j);
      ChunkByte(shares[c], b, j);
    }
  }

  /** An element every client holds: its pattern matches the aggregate. */
  lemma CommonElementMatches(h: Xof, rows: seq<seq<Seed>>, sets: seq<Set>, msgs: seq<Buf>,
                             hash: IndexHash, binCount: nat, hashCount: nat, x: Element)
    requires binCount > 0 && |msgs| == |rows| == |sets|
    requires Uniform(SHARE_BYTE_COUNT * binCount, msgs)
    requires XorFold(SHARE_BYTE_COUNT * binCount, SharesOf(h, SHARE_BYTE_COUNT * binCount, rows))
             == Zeros(SHARE_BYTE_COUNT * binCount)
    requires forall c, b :: 0 <= c < |sets| && 0 <= b < binCount && ToBloomFilter2(sets[c], hash, binCount, hashCount)[b] ==>
               Chunk(msgs[c], b) == Chunk(ZeroShare(h, SHARE_BYTE_COUNT * binCount, rows[c]), b)
    requires forall c :: 0 <= c < |sets| ==> x in sets[c].elems
    ensures Matches(XorFold(SHARE_BYTE_COUNT * binCount, msgs), ElementIndices(hash, x, binCount, hashCount))
  {
    var width := SHARE_BYTE_COUNT * binCount;
    var agg := XorFold(width, msgs);
    var p := ElementIndices(hash, x, binCount, hashCount);
    forall i | 0 <= i < |p|
      ensures AllZero(Chunk(agg, p[i]))
    {
      forall c | 0 <= c < |sets|
        ensures Chunk(msgs[c], p[i]) == Chunk(ZeroShare(h, width, rows[c]), p[i])
      {
        MemberPatternInFilter2(sets[c], hash, binCount, hashCount, x, i);
      }
      MulMono(p[i] + 1, binCount, SHARE_BYTE_COUNT);
      AggregateChunkZero(h, width, rows, msgs, p[i]);
    }
    ZeroChunksMatch(agg, p);
  }

  // ---------------------------------------------------------------------------
  // corrected run

  /** Every client's message, in party order: client `c` holds `sets[c]`, seeds `rows[c]`
      and random bytes `randoms[c]`. */
  method RunClients(h: Xof, rows: seq<seq<Seed>>, sets: seq<Set>, hash: IndexHash, binCount: nat,
                    hashCount: nat, randoms: seq<Buf>, threads: nat)
    returns (msgs: seq<Buf>)
    requires binCount > 0 && threads >= 1
    requires |rows| == |sets| == |randoms|
    requires forall c :: 0 <= c < |rows| ==> |rows[c]| >= 1
    requires forall c :: 0 <= c < |randoms| ==> |randoms[c]| == SHARE_BYTE_COUNT * binCount
    ensures |msgs| == |sets| && Uniform(SHARE_BYTE_COUNT * binCount, msgs)
    ensures forall c, b :: 0 <= c < |sets| && 0 <= b < binCount && ToBloomFilter2(sets[c], hash, binCount, hashCount)[b] ==>
              Chunk(msgs[c], b) == Chunk(ZeroShare(h, SHARE_BYTE_COUNT * binCount, rows[c]), b)
  {
    var width := SHARE_BYTE_COUNT * binCount;
    msgs := [];
    for k := 0 to |sets|
      invariant |msgs| == k && Uniform(width, msgs)
      invariant forall c, b :: 0 <= c < k && 0 <= b < binCount && ToBloomFilter2(sets[c], hash, binCount, hashCount)[b] ==>
                  Chunk(msgs[c], b) == Chunk(ZeroShare(h, width, rows[c]), b)
    {
      var msg := RunClient(h, rows[k], sets[k], hash, binCount, hashCount, randoms[k], threads);
      msgs := msgs + [msg];
    }
  }

  /** The repaired query round on an aggregate of `bin_count` chunks: the querier sends
      one pattern per element of its set, the server evaluates them and sends back the
      packed result bits, and the querier unpacks them and keeps each element whose
      pattern matched. Padding bits past the last element are ignored. The patterns are
      the per-element indices modulo `bin_count` (the commented-out variant of
      `generate_query_patterns`), not the live set-level `(hv % B) % bin_count` of
      `SetIndexLists`, so that they agree with the repaired client's filter bits. */
  method RunQuery(agg: Buf, querier: Set, hash: IndexHash, binCount: nat, hashCount: nat)
    returns (output: Set)
    requires binCount > 0 && |agg| == SHARE_BYTE_COUNT * binCount
    ensures Valid(output)
    ensures Contents(output) <= Contents(querier)
    ensures forall k :: 0 <= k < |querier.elems| ==>
              (Matches(agg, ElementIndices(hash, querier.elems[k], binCount, hashCount)) ==>
                 querier.elems[k] in Contents(output))
    ensures Valid(querier) ==>
              forall k :: 0 <= k < |querier.elems| ==>
                (querier.elems[k] in Contents(output) <==>
                   Matches(agg, ElementIndices(hash, querier.elems[k], binCount, hashCount)))
  {
    var patterns := ElementPatterns(querier, hash, binCount, hashCount);
    var results := ComputeQueryResults(patterns, agg);
    var received := UnpackBits(PackBits(results));
    UnpackPackBits(results);
    assert forall k :: 0 <= k < |results| ==> received[k] == results[k];
    output := ExtractIntersection(querier, received);
  }

  /** The corrected protocol for parties `0 .. |sets|`: party 0 is the server and party
      `k + 1` holds `sets[k]`, so `sets[0]` is the querier's input. Seeds come from the
      corrected `setup_parties`; `bin_count` is the constructor's rounding; every client
      sends its corrupted share to the server; the querier sends one pattern per element
      (indices modulo `bin_count`); the server aggregates, evaluates and returns packed
      bits, which the querier unpacks and extracts from. The output is a well-formed
      subset of the querier's set containing every element common to all inputs. */
  method RunCorrectedProtocol(h: Xof, rnd: (nat, nat) -> Seed, sets: seq<Set>, hash: IndexHash,
                              minimumBinCount: u64, hashCount: nat, randoms: seq<Buf>, threads: nat)
    returns (output: Set)
    requires |sets| >= 2 && threads >= 1
    requires 0 < minimumBinCount <= U64_LIMIT - 64
    requires |randoms| == |sets|
    requires forall k :: 0 <= k < |randoms| ==> |randoms[k]| == SHARE_BYTE_COUNT * BinCount(minimumBinCount)
    ensures Valid(output)
    ensures Contents(Intersection(sets)) <= Contents(output) <= Contents(sets[0])
  {
    var binCount := BinCount(minimumBinCount);
    assert binCount > 0;
    var width := SHARE_BYTE_COUNT * binCount;
    var rows := SetupPartiesCorrected(|sets| + 1, rnd)[1..];
    var msgs := RunClients(h, rows, sets, hash, binCount, hashCount, randoms, threads);
    CorrectedSharesCancel(h, width, |sets| + 1, rnd);
    AggregateAllPresent(msgs, width);
    var agg := AggregateShares(msgs);
    output := RunQuery(agg, sets[0], hash, binCount, hashCount);
    forall x | x in Contents(Intersection(sets))
      ensures x in Contents(output)
    {
      CommonElementMatches(h, rows, sets, msgs, hash, binCount, hashCount, x);
      var k :| 0 <= k < |sets[0].elems| && sets[0].elems[k] == x;
    }
  }
}

=== FILE: sets.dfy ===
/** The party input `Set` (Set.cpp): a hash set of `size_t` elements, its multi-way
    intersection, and its encodings as Bloom filters and as per-element index lists.
    The hash set is modelled by its iteration order, a sequence without repeats; the
    order is whatever the hash table yields and the model leaves it arbitrary. The
    per-index element hash is an uninterpreted function of the element and the index. */
module Sets {
  import opened Bytes

  type Element = u64

  datatype Set = Set(elems: seq<Element>)

  predicate Distinct(xs: seq<Element>) {
    forall i, j :: 0 <= i < j < |xs| ==> xs[i] != xs[j]
  }

  /** A well-formed set lists every element once. */
  predicate Valid(s: Set) {
    Distinct(s.elems)
  }

  /** The elements of a sequence, as a mathematical set. */
  function ToSet(xs: seq<Element>): (r: set<Element>)
    ensures forall x :: x in r <==> x in xs
    decreases |xs|
  {
    if |xs| == 0 then {} else {xs[0]} + ToSet(xs[1..])
  }

  function Contents(s: Set): set<Element> {
    ToSet(s.elems)
  }

  lemma DistinctHead(xs: seq<Element>)
    requires Distinct(xs) && |xs| > 0
    ensures xs[0] !in xs[1..]
    ensures Distinct(xs[1..])
  {
    forall j | 0 <= j < |xs| - 1
      ensures xs[1..][j] != xs[0]
    {
      assert xs[1..][j] == xs[j + 1];
    }
  }

  const EMPTY: Set := Set([])

  // ---------------------------------------------------------------------------
  // insert, ==, intersection

  /** `insert(x)`: adds `x` unless it is already present. */
  function Insert(s: Set, x: Element): (r: Set)
    ensures Contents(r) == Contents(s) + {x}
    ensures Valid(s) ==> Valid(r)
    ensures x in s.elems ==> r == s
  {
    if x in s.elems then s else Set(s.elems + [x])
  }

  /** Inserting an element twice is the same as inserting it once. */
  lemma InsertIdempotent(s: Set, x: Element)
    ensures Insert(Insert(s, x), x) == Insert(s, x)
  {
  }

  /** `operator==` of `std::unordered_set`: equal sizes and every element of one found in the other. */
  predicate Equal(a: Set, b: Set): (r: bool)
    ensures r ==> Contents(a) <= Contents(b)
    ensures !r && |a.elems| == |b.elems| ==> !(Contents(a) <= Contents(b))
  {
    |a.elems| == |b.elems| && forall x :: x in a.elems ==> x in b.elems
  }

  lemma {:induction false} DistinctCard(xs: seq<Element>)
    requires Distinct(xs)
    ensures |ToSet(xs)| == |xs|
    decreases |xs|
  {
    if |xs| > 0 {
      DistinctHead(xs);
      DistinctCard(xs[1..]);
      assert xs[0] !in ToSet(xs[1..]);
    }
  }

  lemma SubsetSameCard(a: set<Element>, b: set<Element>)
    requires a <= b && |a| == |b|
    ensures a == b
  {
    var d := b - a;
    assert b == a + d && a * d == {};
    assert |b| == |a| + |d|;
  }

  /** For well-formed sets, `==` is equality of the element sets. */
  lemma EqualIsSetEquality(a: Set, b: Set)
    requires Valid(a) && Valid(b)
    ensures Equal(a, b) <==> Contents(a) == Contents(b)
  {
    DistinctCard(a.elems);
    DistinctCard(b.elems);
    if Equal(a, b) {
      SubsetSameCard(Contents(a), Contents(b));
    }
  }

  /** The elements of `xs` that are also in `ys`, in `xs` order. */
  function Filter(xs: seq<Element>, ys: seq<Element>): (r: seq<Element>)
    ensures forall x :: x in r <==> x in xs && x in ys
    ensures Distinct(xs) ==> Distinct(r)
    decreases |xs|
  {
    if |xs| == 0 then []
    else
      var rest := Filter(xs[1..], ys);
      if xs[0] in ys then
        if Distinct(xs) then
          DistinctHead(xs);
          [xs[0]] + rest
        else
          [xs[0]] + rest
      else rest
  }

  /** Intersects `result` with each of `sets` in turn. */
  function IntersectEach(result: Set, sets: seq<Set>): (r: Set)
    ensures forall x :: x in Contents(r) <==> x in Contents(result) && forall k :: 0 <= k < |sets| ==> x in Contents(sets[k])
    ensures Valid(result) ==> Valid(r)
    decreases |sets|
  {
    if |sets| == 0 then result
    else IntersectEach(Set(Filter(result.elems, sets[0].elems)), sets[1..])
  }

  /** `Set::intersection`: empty for no sets; otherwise the first set narrowed by every set
      in the list (the first included), so it holds exactly the elements common to all. */
  function Intersection(sets: seq<Set>): (r: Set)
    ensures forall x :: x in Contents(r) <==> |sets| > 0 && forall k :: 0 <= k < |sets| ==> x in Contents(sets[k])
    ensures |sets| > 0 && Valid(sets[0]) ==> Valid(r)
  {
    if |sets| == 0 then EMPTY else IntersectEach(sets[0], sets)
  }

  // ---------------------------------------------------------------------------
  // Bloom filter sizes

  /** `ceil(n * 14.3779296875)`: the constant is exactly 14723/1024, so the ceiling is exact
      integer arithmetic. */
  function CeilBits(n: nat): (r: nat)
    ensures 1024 * r >= 14723 * n
    ensures 1024 * r < 14723 * n + 1024
  {
    (n * 14723 + 1023) / 1024
  }

  const MAX_BITS: nat := 100_000_000

  /** `compute_optimal_bit_size(n, bin_count)`: the rounded-up bit count times 40, capped at
      100 000 000. The `bin_count` argument is not used by the source. */
  function BitArraySize(n: nat): (r: nat)
    ensures r <= MAX_BITS && r % 40 == 0
    ensures r == 0 <==> n == 0
    ensures 40 * CeilBits(n) <= MAX_BITS ==> r == 40 * CeilBits(n)
    ensures 40 * CeilBits(n) > MAX_BITS ==> r == MAX_BITS
  {
    var c := CeilBits(n);
    DivUnique(c * 40, 40, c);
    Min(c * 40, MAX_BITS)
  }

  const SHARE_BYTES: nat := 40

  /** The alignment in `to_bloom_filter`: round up to a multiple of 40. */
  function AlignToShare(b: nat): (r: nat)
    ensures r % SHARE_BYTES == 0
    ensures b <= r < b + SHARE_BYTES
    ensures b % SHARE_BYTES == 0 ==> r == b
  {
    if b % SHARE_BYTES != 0 then b + (SHARE_BYTES - b % SHARE_BYTES) else b
  }

  /** Since the optimal bit size is already a multiple of 40, the alignment never changes it. */
  lemma AlignedBitArraySize(n: nat)
    ensures AlignToShare(BitArraySize(n)) == BitArraySize(n)
  {
  }

  // ---------------------------------------------------------------------------
  // Hash values and indices

  /** `extract_hash_value`: the first `min(8, |h|)` bytes copied into a zeroed `size_t`,
      i.e. their little-endian value. */
  function HashValue(h: Buf): (r: u64)
    ensures r as nat < Pow256(Min(WORD_BYTES, |h|))
    ensures |h| > 0 ==> r as nat % 256 == h[0] as nat
  {
    var k := Min(WORD_BYTES, |h|);
    Pow256Monotone(k, WORD_BYTES);
    Pow256Word();
    LittleEndian(h[..k])
  }

  lemma {:induction false} LittleEndianZeroPad(b: Buf, k: nat)
    ensures LittleEndian(b + Zeros(k)) == LittleEndian(b)
    decreases |b|
  {
    if |b| == 0 {
      LittleEndianZeros(k);
      assert b + Zeros(k) == Zeros(k);
    } else {
      assert (b + Zeros(k))[1..] == b[1..] + Zeros(k);
      LittleEndianZeroPad(b[1..], k);
    }
  }

  lemma {:induction false} LittleEndianZeros(k: nat)
    ensures LittleEndian(Zeros(k)) == 0
    decreases k
  {
    if k > 0 {
      assert Zeros(k)[1..] == Zeros(k - 1);
      LittleEndianZeros(k - 1);
    }
  }

  /** The hash value of a word-encoded `v` followed by anything is `v`; and a digest shorter
      than a word reads as if zero-padded to 8 bytes. */
  lemma HashValueOfWord(v: u64, tail: Buf)
    ensures HashValue(Word(v) + tail) == v
  {
    assert (Word(v) + tail)[..WORD_BYTES] == Word(v);
  }

  lemma HashValueShort(h: Buf)
    requires |h| < WORD_BYTES
    ensures HashValue(h + Zeros(WORD_BYTES - |h|)) == HashValue(h)
  {
    var p := h + Zeros(WORD_BYTES - |h|);
    assert p[..WORD_BYTES] == p;
    assert h[..|h|] == h;
    LittleEndianZeroPad(h, WORD_BYTES - |h|);
  }

  /** The hash of an element under hash index `i` (`generic_hash_func` on the element's bytes). */
  type IndexHash = (Element, nat) -> Buf

  /** `bloom_filter_indices(element, bin_count, hash_count)`: one index per hash function,
      each the hash value reduced modulo `m`. A zero modulus is only defined with no hashes. */
  function ElementIndices(hash: IndexHash, e: Element, m: nat, hashCount: nat): (r: seq<nat>)
    requires m > 0 || hashCount == 0
    ensures |r| == hashCount
    ensures forall i :: 0 <= i < hashCount ==> r[i] < m
  {
    seq(hashCount, i requires 0 <= i < hashCount => HashValue(hash(e, i)) % m)
  }

  /** The set-level `bloom_filter_indices(bin_count, hash_count)`: one list per element in
      iteration order, each hash value reduced first modulo the optimal bit size `B` and
      then modulo `bin_count`. */
  function SetIndexLists(s: Set, hash: IndexHash, binCount: nat, hashCount: nat): (r: seq<seq<nat>>)
    requires binCount > 0 || |s.elems| == 0 || hashCount == 0
    ensures |r| == |s.elems|
    ensures forall k :: 0 <= k < |r| ==> |r[k]| == hashCount
    ensures forall k, i :: 0 <= k < |r| && 0 <= i < hashCount ==>
              r[k][i] == (HashValue(hash(s.elems[k], i)) % BitArraySize(|s.elems|)) % binCount
  {
    var b := BitArraySize(|s.elems|);
    seq(|s.elems|, k requires 0 <= k < |s.elems| =>
      seq(hashCount, i requires 0 <= i < hashCount => (HashValue(hash(s.elems[k], i)) % b) % binCount))
  }

  /** The query patterns of the set-level builder are valid bin indices. */
  lemma SetIndexListsInRange(s: Set, hash: IndexHash, binCount: nat, hashCount: nat)
    requires binCount > 0
    ensures forall k, i :: 0 <= k < |s.elems| && 0 <= i < hashCount ==>
              SetIndexLists(s, hash, binCount, hashCount)[k][i] < binCount
  {
  }

  // ---------------------------------------------------------------------------
  // Bloom filters

  /** Sets the bits at `idxs` (all in range) and leaves the others as they were. */
  function MarkAll(bits: seq<bool>, idxs: seq<nat>): (r: seq<bool>)
    requires forall j :: j in idxs ==> j < |bits|
    ensures |r| == |bits|
    ensures forall j :: 0 <= j < |bits| ==> (r[j] <==> bits[j] || j in idxs)
    decreases |idxs|
  {
    if |idxs| == 0 then bits
    else
      assert idxs[0] in idxs;
      assert forall j :: j in idxs[1..] ==> j in idxs;
      MarkAll(bits[idxs[0] := true], idxs[1..])
  }

  lemma {:induction false} InFlatten(lists: seq<seq<nat>>, j: nat)
    ensures j in Flatten<nat>(lists) <==> exists k :: 0 <= k < |lists| && j in lists[k]
    decreases |lists|
  {
    if |lists| > 0 {
      InFlatten(lists[1..], j);
      assert Flatten<nat>(lists) == lists[0] + Flatten<nat>(lists[1..]);
      if j in Flatten<nat>(lists[1..]) {
        var k :| 0 <= k < |lists[1..]| && j in lists[1..][k];
        assert j in lists[k + 1];
      }
      if exists k :: 0 <= k < |lists| && j in lists[k] {
        var k :| 0 <= k < |lists| && j in lists[k];
        if k > 0 {
          assert j in lists[1..][k - 1];
        }
      }
    }
  }

  /** Some member `e` and hash index `i < hashCount` have `H(e, i) mod m = j`. */
  predicate Hit(s: Set, hash: IndexHash, m: nat, hashCount: nat, j: nat)
    requires m > 0
  {
    exists k, i :: 0 <= k < |s.elems| && 0 <= i < hashCount && HashValue(hash(s.elems[k], i)) % m == j
  }

  /** Per-element index lists modulo `m`, one per element in iteration order
      (`bloom_filter_indices(element, m, hash_count)` for each member). */
  function ElementPatterns(s: Set, hash: IndexHash, m: nat, hashCount: nat): (r: seq<seq<nat>>)
    requires m > 0 || |s.elems| == 0 || hashCount == 0
    ensures |r| == |s.elems|
    ensures forall k :: 0 <= k < |r| ==> r[k] == ElementIndices(hash, s.elems[k], m, hashCount)
  {
    seq(|s.elems|, k requires 0 <= k < |s.elems| => ElementIndices(hash, s.elems[k], m, hashCount))
  }

  /** An index occurs in some element's list exactly when it is hit. */
  lemma InPatterns(s: Set, hash: IndexHash, m: nat, hashCount: nat, j: nat)
    requires m > 0
    ensures j in Flatten<nat>(ElementPatterns(s, hash, m, hashCount)) <==> Hit(s, hash, m, hashCount, j)
  {
    var lists := ElementPatterns(s, hash, m, hashCount);
    InFlatten(lists, j);
    if j in Flatten<nat>(lists) {
      var k :| 0 <= k < |lists| && j in lists[k];
      var i :| 0 <= i < |lists[k]| && lists[k][i] == j;
      assert HashValue(hash(s.elems[k], i)) % m == j;
    }
    if Hit(s, hash, m, hashCount, j) {
      var k, i :| 0 <= k < |s.elems| && 0 <= i < hashCount && HashValue(hash(s.elems[k], i)) % m == j;
      assert lists[k][i] == j;
    }
  }

  /** A filter of `m` bits with exactly the hit positions set. */
  function BuildFilter(s: Set, hash: IndexHash, m: nat, hashCount: nat): (r: seq<bool>)
    requires m > 0 || |s.elems| == 0 || hashCount == 0
    ensures |r| == m
    ensures forall j :: 0 <= j < m ==> (r[j] <==> Hit(s, hash, m, hashCount, j))
  {
    var lists := ElementPatterns(s, hash, m, hashCount);
    if m == 0 then []
    else
      forall j | j in Flatten<nat>(lists)
        ensures j < m
      {
        InPatterns(s, hash, m, hashCount, j);
      }
      var r := MarkAll(seq(m, _ => false), Flatten<nat>(lists));
      forall j | 0 <= j < m
        ensures r[j] <==> Hit(s, hash, m, hashCount, j)
      {
        InPatterns(s, hash, m, hashCount, j);
      }
      r
  }

  /** `to_bloom_filter`: a filter of `L` bits, `L` the optimal bit size rounded up to a
      multiple of 40, in which bit `j` is set exactly when some member `e` and hash index
      `i` have `H(e, i) mod L = j`. */
  function ToBloomFilter(s: Set, hash: IndexHash, hashCount: nat): (r: seq<bool>)
    ensures |r| == AlignToShare(BitArraySize(|s.elems|))
    ensures forall j :: 0 <= j < |r| ==> (r[j] <==> Hit(s, hash, |r|, hashCount, j))
  {
    BuildFilter(s, hash, AlignToShare(BitArraySize(|s.elems|)), hashCount)
  }

  /** `to_bloom_filter2`: a filter of `bin_count` bits in which bit `j` is set exactly when
      some member `e` and hash index `i` have `H(e, i) mod bin_count = j`. */
  function ToBloomFilter2(s: Set, hash: IndexHash, binCount: nat, hashCount: nat): (r: seq<bool>)
    requires binCount > 0 || |s.elems| == 0 || hashCount == 0
    ensures |r| == binCount
    ensures forall j :: 0 <= j < binCount ==> (r[j] <==> Hit(s, hash, binCount, hashCount, j))
  {
    BuildFilter(s, hash, binCount, hashCount)
  }

  /** A member's per-element pattern hits only set bits of `to_bloom_filter2` of any set
      that contains it. */
  lemma MemberPatternInFilter2(s: Set, hash: IndexHash, binCount: nat, hashCount: nat, x: Element, i: nat)
    requires binCount > 0 && x in s.elems && i < hashCount
    ensures ToBloomFilter2(s, hash, binCount, hashCount)[ElementIndices(hash, x, binCount, hashCount)[i]]
  {
    var k :| 0 <= k < |s.elems| && s.elems[k] == x;
    var j := ElementIndices(hash, x, binCount, hashCount)[i];
    assert HashValue(hash(s.elems[k], i)) % binCount == j;
  }

  // ---------------------------------------------------------------------------
  // The two moduli disagree

  /** A hash whose every digest is the word `v`. */
  function ConstantHash(v: u64): IndexHash {
    (e: Element, i: nat) => Word(v)
  }

  lemma ConstantHashValue(v: u64, e: Element, i: nat)
    ensures HashValue(ConstantHash(v)(e, i)) == v
  {
    HashValueOfWord(v, []);
    assert Word(v) + [] == Word(v);
  }

  lemma BitArraySizeOne()
    ensures CeilBits(1) == 15 && BitArraySize(1) == 600
  {
  }

  /** One element whose first hash value is 599, one hash function, 512 bins: the optimal
      bit size is 600, so `to_bloom_filter` sets bit 599, while the set-level query pattern
      asks for bin `(599 mod 600) mod 512 = 87`, a bit the filter leaves clear. */
  lemma FilterAndQueryModuliDisagree(hash: IndexHash, e: Element)
    requires HashValue(hash(e, 0)) == 599
    ensures SetIndexLists(Set([e]), hash, 512, 1) == [[87]]
    ensures |ToBloomFilter(Set([e]), hash, 1)| == 600
    ensures ToBloomFilter(Set([e]), hash, 1)[599]
    ensures !ToBloomFilter(Set([e]), hash, 1)[87]
  {
    var s := Set([e]);
    BitArraySizeOne();
    var lists := SetIndexLists(s, hash, 512, 1);
    assert |lists| == 1 && |lists[0]| == 1;
    assert lists[0][0] == 87;
    assert lists[0] == [87];
    assert HashValue(hash(s.elems[0], 0)) % 600 == 599;
    assert Hit(s, hash, 600, 1, 599);
    assert !Hit(s, hash, 600, 1, 87);
  }

  /** Such a hash exists: any constant digest `v` with `v mod 600 = 599` and
      `599 mod 512 = 87`, the smallest being 599 itself. */
  lemma FilterAndQueryModuliDisagreeWitness(v: u64, e: Element)
    requires v == 599
    ensures SetIndexLists(Set([e]), ConstantHash(v), 512, 1) == [[87]]
    ensures |ToBloomFilter(Set([e]), ConstantHash(v), 1)| == 600
    ensures ToBloomFilter(Set([e]), ConstantHash(v), 1)[599]
    ensures !ToBloomFilter(Set([e]), ConstantHash(v), 1)[87]
  {
    ConstantHashValue(v, e, 0);
    FilterAndQueryModuliDisagree(ConstantHash(v), e);
  }
}

=== FILE: simd_bytes.dfy ===
/** The share buffer `SimdBytes` of secret_sharing_simd: a flat byte vector with
    zero-filled construction, resize, fill, bytewise XOR, per-byte select and
    splitting into fixed-size chunks, plus the XOR-fold algebra every
    aggregation in the protocol rests on. */
module SimdBytes {
  import opened Bytes

  /** Bytes per Bloom bin in a share. */
  const SHARE_BYTE_COUNT: nat := 40
  /** Bytes per pairwise seed. */
  const RAND_SECRET_SIZE: nat := 16

  type Seed = s: Buf | |s| == RAND_SECRET_SIZE witness seq(16, _ => 0 as bv8)

  /** The value-initialised seed `std::array<uint8_t, 16>{}`. */
  const ZERO_SEED: Seed := Zeros(RAND_SECRET_SIZE)

  /** `SimdBytes(n, v)`: `n` copies of `v`. */
  function Filled(n: nat, v: byte): (r: Buf)
    ensures |r| == n
    ensures forall i :: 0 <= i < n ==> r[i] == v
  {
    seq(n, _ => v)
  }

  /** `fill(v)`: every byte becomes `v`, the length stays. */
  function Fill(b: Buf, v: byte): (r: Buf)
    ensures |r| == |b|
    ensures forall i :: 0 <= i < |b| ==> r[i] == v
  {
    Filled(|b|, v)
  }

  /** `resize(n)`: keeps the common prefix and pads with zero bytes. */
  function Resize(b: Buf, n: nat): (r: Buf)
    ensures |r| == n
    ensures forall i :: 0 <= i < n && i < |b| ==> r[i] == b[i]
    ensures forall i :: |b| <= i < n ==> r[i] == 0
  {
    if n <= |b| then b[..n] else b + Zeros(n - |b|)
  }

  /** `a ^ b` (and `a ^= b`): the source asserts equal lengths. */
  function Xor(a: Buf, b: Buf): (r: Buf)
    requires |a| == |b|
    ensures |r| == |a|
    ensures forall i :: 0 <= i < |a| ==> r[i] == a[i] ^ b[i]
  {
    seq(|a|, i requires 0 <= i < |a| => a[i] ^ b[i])
  }

  /** `select(mask, t, f)`: byte i comes from `t` when `mask[i]` is non-zero. */
  function Select(mask: Buf, t: Buf, f: Buf): (r: Buf)
    requires |mask| == |t| == |f|
    ensures |r| == |mask|
    ensures forall i :: 0 <= i < |mask| ==> r[i] == (if mask[i] != 0 then t[i] else f[i])
  {
    seq(|mask|, i requires 0 <= i < |mask| => if mask[i] != 0 then t[i] else f[i])
  }

  // ---------------------------------------------------------------------------
  // Splitting into chunks (`to_byte_chunks<C>`)

  /** The `k` consecutive chunks of `c` bytes that make up `b`. */
  function Chunks(b: Buf, c: nat, k: nat): (r: seq<Buf>)
    requires c > 0 && |b| == k * c
    ensures |r| == k
    ensures forall i :: 0 <= i < k ==> |r[i]| == c
    ensures Flatten(r) == b
    decreases k
  {
    if k == 0 then []
    else
      MulSucc(k - 1, c);
      var rest := Chunks(b[c..], c, k - 1);
      assert ([b[..c]] + rest)[1..] == rest;
      assert b == b[..c] + b[c..];
      [b[..c]] + rest
  }

  /** `to_byte_chunks<C>()`: the source asserts that `C` divides the length. */
  function ToByteChunks(b: Buf, c: nat): (r: seq<Buf>)
    requires c > 0 && |b| % c == 0
    ensures |r| == |b| / c
    ensures forall i :: 0 <= i < |r| ==> |r[i]| == c
    ensures Flatten(r) == b
  {
    assert |b| == (|b| / c) * c;
    Chunks(b, c, |b| / c)
  }

  /** In a list of equal-size chunks, chunk `i` is the slice `[i*c, (i+1)*c)` of the concatenation. */
  lemma {:induction false} ChunkIsSlice(chunks: seq<Buf>, c: nat, i: nat)
    requires forall j :: 0 <= j < |chunks| ==> |chunks[j]| == c
    requires i < |chunks|
    ensures (i + 1) * c <= |Flatten(chunks)|
    ensures chunks[i] == Flatten(chunks)[i * c .. (i + 1) * c]
    decreases i
  {
    FlattenLength(chunks, c);
    FlattenLength(chunks[1..], c);
    MulSucc(i, c);
    var f := Flatten(chunks);
    assert f == chunks[0] + Flatten(chunks[1..]);
    if i > 0 {
      ChunkIsSlice(chunks[1..], c, i - 1);
      MulSucc(i - 1, c);
      assert chunks[i] == Flatten(chunks[1..])[(i - 1) * c .. i * c];
      assert f[i * c .. (i + 1) * c] == Flatten(chunks[1..])[(i - 1) * c .. i * c];
    }
  }

  /** Chunk `i` of `to_byte_chunks<C>` is exactly the bytes `[i*C, (i+1)*C)` of the buffer. */
  lemma ToByteChunksSlice(b: Buf, c: nat, i: nat)
    requires c > 0 && |b| % c == 0
    requires i < |ToByteChunks(b, c)|
    ensures (i + 1) * c <= |b|
    ensures ToByteChunks(b, c)[i] == b[i * c .. (i + 1) * c]
  {
    ChunkIsSlice(ToByteChunks(b, c), c, i);
  }

  /** Byte `j` of chunk `i` is byte `i*c + j` of the buffer. */
  lemma ToByteChunksByte(b: Buf, c: nat, i: nat, j: nat)
    requires c > 0 && |b| % c == 0
    requires i < |b| / c && j < c
    ensures i * c + j < |b|
    ensures ToByteChunks(b, c)[i][j] == b[i * c + j]
  {
    ToByteChunksSlice(b, c, i);
    MulSucc(i, c);
  }

  // ---------------------------------------------------------------------------
  // XOR folds

  predicate Uniform(n: nat, bufs: seq<Buf>) {
    forall k :: 0 <= k < |bufs| ==> |bufs[k]| == n
  }

  /** Left XOR-fold of equal-length buffers, starting from `n` zero bytes. */
  function XorFold(n: nat, bufs: seq<Buf>): (r: Buf)
    requires Uniform(n, bufs)
    ensures |r| == n
    decreases |bufs|
  {
    if |bufs| == 0 then Zeros(n) else Xor(XorFold(n, bufs[..|bufs| - 1]), bufs[|bufs| - 1])
  }

  /** The fold the source writes out: start from the first buffer and `^=` the rest in order. */
  function FoldFromFirst(n: nat, bufs: seq<Buf>): (r: Buf)
    requires |bufs| >= 1 && Uniform(n, bufs)
    ensures r == XorFold(n, bufs)
    decreases |bufs|
  {
    if |bufs| == 1 then
      assert bufs[..0] == [];
      bufs[0]
    else
      Xor(FoldFromFirst(n, bufs[..|bufs| - 1]), bufs[|bufs| - 1])
  }

  function Map<T>(f: T -> Buf, xs: seq<T>): (r: seq<Buf>)
    ensures |r| == |xs|
    ensures forall i :: 0 <= i < |xs| ==> r[i] == f(xs[i])
  {
    seq(|xs|, i requires 0 <= i < |xs| => f(xs[i]))
  }

  predicate MapsTo<T>(f: T -> Buf, n: nat, xs: seq<T>) {
    forall i :: 0 <= i < |xs| ==> |f(xs[i])| == n
  }

  lemma XorAssoc(a: Buf, b: Buf, c: Buf)
    requires |a| == |b| == |c|
    ensures Xor(Xor(a, b), c) == Xor(a, Xor(b, c))
  {
  }

  lemma XorComm(a: Buf, b: Buf)
    requires |a| == |b|
    ensures Xor(a, b) == Xor(b, a)
  {
  }

  lemma XorSelf(a: Buf)
    ensures Xor(a, a) == Zeros(|a|)
  {
  }

  lemma XorZero(a: Buf)
    ensures Xor(a, Zeros(|a|)) == a
    ensures Xor(Zeros(|a|), a) == a
  {
  }

  /** Folding a concatenation is the XOR of the two folds. */
  lemma {:induction false} XorFoldConcat(n: nat, a: seq<Buf>, b: seq<Buf>)
    requires Uniform(n, a) && Uniform(n, b)
    ensures Uniform(n, a + b)
    ensures XorFold(n, a + b) == Xor(XorFold(n, a), XorFold(n, b))
    decreases |b|
  {
    if |b| == 0 {
      assert a + b == a;
      XorZero(XorFold(n, a));
    } else {
      var b' := b[..|b| - 1];
      var x := b[|b| - 1];
      assert (a + b)[..|a + b| - 1] == a + b';
      XorFoldConcat(n, a, b');
      XorAssoc(XorFold(n, a), XorFold(n, b'), x);
    }
  }

  /** Removing one matching item from both sides keeps two multisets equal. */
  lemma MultisetRemoveAt<T>(a: seq<T>, x: T, b: seq<T>, j: nat)
    requires j < |b| && b[j] == x
    requires multiset(a + [x]) == multiset(b)
    ensures multiset(a) == multiset(b[..j] + b[j + 1..])
    ensures multiset(b[..j] + b[j + 1..]) <= multiset(b)
  {
    var b' := b[..j] + b[j + 1..];
    assert b == b[..j] + [x] + b[j + 1..];
    assert multiset(b) == multiset(b') + multiset{x};
    forall y ensures multiset(a)[y] == multiset(b')[y] {
      assert (multiset(a) + multiset{x})[y] == (multiset(b') + multiset{x})[y];
    }
  }

  /** An item in the middle of a fold can be XOR-ed in last instead. */
  lemma XorFoldMoveLast(n: nat, l: seq<Buf>, x: Buf, r: seq<Buf>)
    requires Uniform(n, l) && |x| == n && Uniform(n, r)
    ensures Uniform(n, l + [x] + r) && Uniform(n, l + r)
    ensures XorFold(n, l + [x] + r) == Xor(XorFold(n, l + r), x)
  {
    XorFoldConcat(n, l + [x], r);
    XorFoldConcat(n, l, [x]);
    XorFoldConcat(n, l, r);
    assert [x][..0] == [];
    var p := XorFold(n, l);
    var q := XorFold(n, r);
    XorZero(x);
    assert XorFold(n, [x]) == x;
    XorAssoc(p, x, q);
    XorComm(x, q);
    XorAssoc(p, q, x);
  }

  /** Folding a sequence equals folding it without item `j` and XOR-ing that item in last. */
  lemma XorFoldRemoveAt<T>(f: T -> Buf, n: nat, b: seq<T>, j: nat)
    requires MapsTo(f, n, b) && j < |b|
    ensures XorFold(n, Map(f, b)) == Xor(XorFold(n, Map(f, b[..j] + b[j + 1..])), f(b[j]))
  {
    var l := Map(f, b[..j]);
    var r := Map(f, b[j + 1..]);
    assert Map(f, b) == l + [f(b[j])] + r;
    assert Map(f, b[..j] + b[j + 1..]) == l + r;
    XorFoldMoveLast(n, l, f(b[j]), r);
  }

  /** The last item of `a` sits at some position `j` of `b`, and removing it from both
      leaves equal multisets. */
  lemma MatchLast<T>(f: T -> Buf, n: nat, a: seq<T>, b: seq<T>) returns (j: nat)
    requires |a| > 0 && MapsTo(f, n, b)
    requires multiset(a) == multiset(b)
    ensures j < |b| && b[j] == a[|a| - 1]
    ensures multiset(a[..|a| - 1]) == multiset(b[..j] + b[j + 1..])
    ensures MapsTo(f, n, b[..j] + b[j + 1..])
  {
    var x := a[|a| - 1];
    assert a == a[..|a| - 1] + [x];
    assert x in multiset(b);
    j :| 0 <= j < |b| && b[j] == x;
    MultisetRemoveAt(a[..|a| - 1], x, b, j);
    MapsToSub(f, n, b, b[..j] + b[j + 1..]);
  }

  /** XOR-folding the images of two sequences with the same multiset of items gives the same buffer:
      the fold does not depend on the order in which the items arrive. */
  lemma {:induction false} XorFoldPermutation<T>(f: T -> Buf, n: nat, a: seq<T>, b: seq<T>)
    requires MapsTo(f, n, a) && MapsTo(f, n, b)
    requires multiset(a) == multiset(b)
    ensures XorFold(n, Map(f, a)) == XorFold(n, Map(f, b))
    decreases |a|
  {
    if |a| == 0 {
      assert |b| == |multiset(b)| == 0;
      assert Map(f, a) == Map(f, b);
    } else {
      var a' := a[..|a| - 1];
      var j := MatchLast(f, n, a, b);
      XorFoldPermutation(f, n, a', b[..j] + b[j + 1..]);
      assert XorFold(n, Map(f, a)) == Xor(XorFold(n, Map(f, a')), f(a[|a| - 1])) by {
        assert Map(f, a)[..|a| - 1] == Map(f, a');
      }
      XorFoldRemoveAt(f, n, b, j);
    }
  }

  /** A pair of equal items in front of a sequence contributes nothing to its fold. */
  lemma PairCancels<T>(f: T -> Buf, n: nat, x: T, rest: seq<T>)
    requires |f(x)| == n && MapsTo(f, n, rest)
    ensures MapsTo(f, n, [x, x] + rest)
    ensures XorFold(n, Map(f, [x, x] + rest)) == XorFold(n, Map(f, rest))
  {
    var fx := f(x);
    var two := Map(f, [x, x]);
    assert Map(f, [x, x] + rest) == two + Map(f, rest);
    XorFoldConcat(n, two, Map(f, rest));
    assert two[..1] == [fx] && [fx][..0] == [];
    XorZero(fx);
    assert XorFold(n, [fx]) == Xor(Zeros(n), fx) == fx;
    assert XorFold(n, two) == Xor(XorFold(n, [fx]), fx);
    XorSelf(fx);
    XorZero(XorFold(n, Map(f, rest)));
  }

  /** An item occurring an even number of times occurs again after its first position. */
  lemma SecondOccurrence<T>(xs: seq<T>) returns (j: nat)
    requires |xs| > 0 && multiset(xs)[xs[0]] % 2 == 0
    ensures 1 <= j < |xs| && xs[j] == xs[0]
  {
    assert xs == [xs[0]] + xs[1..];
    assert multiset(xs)[xs[0]] == 1 + multiset(xs[1..])[xs[0]];
    assert xs[0] in multiset(xs[1..]);
    var k :| 0 <= k < |xs[1..]| && xs[1..][k] == xs[0];
    j := k + 1;
  }

  /** Cutting out positions `0` and `j` removes two copies of `xs[0]` from the multiset. */
  lemma CutTwo<T>(xs: seq<T>, j: nat)
    requires 1 <= j < |xs| && xs[j] == xs[0]
    ensures multiset(xs) == multiset(xs[1..j] + xs[j + 1..]) + multiset{xs[0], xs[0]}
  {
    assert xs == [xs[0]] + xs[1..j] + [xs[j]] + xs[j + 1..];
  }

  /** Removing two occurrences of the first item keeps every multiplicity even. */
  lemma RemovePair<T>(xs: seq<T>) returns (rest: seq<T>)
    requires |xs| > 0
    requires forall x :: multiset(xs)[x] % 2 == 0
    ensures |rest| == |xs| - 2
    ensures multiset(xs) == multiset(rest) + multiset{xs[0], xs[0]}
    ensures forall y :: multiset(rest)[y] % 2 == 0
  {
    var j := SecondOccurrence(xs);
    rest := xs[1..j] + xs[j + 1..];
    CutTwo(xs, j);
    forall y
      ensures multiset(rest)[y] % 2 == 0
    {
      assert multiset(xs)[y] == multiset(rest)[y] + multiset{xs[0], xs[0]}[y];
    }
  }

  /** Every item of a sub-multiset of `xs` maps to an `n`-byte buffer when `xs`'s items do. */
  lemma MapsToSub<T>(f: T -> Buf, n: nat, xs: seq<T>, ys: seq<T>)
    requires MapsTo(f, n, xs) && multiset(ys) <= multiset(xs)
    ensures MapsTo(f, n, ys)
  {
    forall i | 0 <= i < |ys|
      ensures |f(ys[i])| == n
    {
      assert ys[i] in multiset(ys);
      assert ys[i] in multiset(xs);
      var j :| 0 <= j < |xs| && xs[j] == ys[i];
    }
  }

  /** Items occurring an even number of times cancel: the fold is all-zero. */
  lemma {:induction false} XorFoldEvenCancels<T>(f: T -> Buf, n: nat, xs: seq<T>)
    requires MapsTo(f, n, xs)
    requires forall x :: multiset(xs)[x] % 2 == 0
    ensures XorFold(n, Map(f, xs)) == Zeros(n)
    decreases |xs|
  {
    if |xs| > 0 {
      var rest := RemovePair(xs);
      MapsToSub(f, n, xs, rest);
      XorFoldEvenCancels(f, n, rest);
      var pair := [xs[0], xs[0]] + rest;
      PairCancels(f, n, xs[0], rest);
      assert multiset(pair) == multiset{xs[0], xs[0]} + multiset(rest);
      XorFoldPermutation(f, n, xs, pair);
    }
  }

  /** Folding pairwise XORs is the XOR of the two folds. */
  lemma {:induction false} XorFoldPairwise(n: nat, a: seq<Buf>, b: seq<Buf>)
    requires |a| == |b| && Uniform(n, a) && Uniform(n, b)
    ensures Uniform(n, seq(|a|, k requires 0 <= k < |a| => Xor(a[k], b[k])))
    ensures XorFold(n, seq(|a|, k requires 0 <= k < |a| => Xor(a[k], b[k])))
         == Xor(XorFold(n, a), XorFold(n, b))
    decreases |a|
  {
    var c := seq(|a|, k requires 0 <= k < |a| => Xor(a[k], b[k]));
    if |a| == 0 {
      XorZero(Zeros(n));
    } else {
      var m := |a| - 1;
      var a' := a[..m];
      var b' := b[..m];
      XorFoldPairwise(n, a', b');
      assert c[..m] == seq(m, k requires 0 <= k < m => Xor(a'[k], b'[k]));
      var p := XorFold(n, a');
      var q := XorFold(n, b');
      XorAssoc(p, q, Xor(a[m], b[m]));
      XorAssoc(q, a[m], b[m]);
      XorComm(q, a[m]);
      XorAssoc(a[m], q, b[m]);
      XorAssoc(p, a[m], Xor(q, b[m]));
    }
  }

  /** `m` copies of one buffer fold to itself when `m` is odd and to zero when it is even. */
  lemma {:induction false} XorFoldRepeat(n: nat, x: Buf, m: nat)
    requires |x| == n
    ensures Uniform(n, seq(m, _ => x))
    ensures XorFold(n, seq(m, _ => x)) == if m % 2 == 0 then Zeros(n) else x
    decreases m
  {
    if m > 0 {
      XorFoldRepeat(n, x, m - 1);
      assert seq(m, _ => x)[..m - 1] == seq(m - 1, _ => x);
      XorZero(x);
      XorSelf(x);
    }
  }

  /** A byte position that is zero in every buffer is zero in the fold. */
  lemma {:induction false} XorFoldZeroColumn(n: nat, bufs: seq<Buf>, i: nat)
    requires Uniform(n, bufs) && i < n
    requires forall k :: 0 <= k < |bufs| ==> bufs[k][i] == 0
    ensures XorFold(n, bufs)[i] == 0
    decreases |bufs|
  {
    if |bufs| > 0 {
      XorFoldZeroColumn(n, bufs[..|bufs| - 1], i);
    }
  }

  /** Byte `i` of a fold depends only on byte `i` of each folded buffer. */
  lemma {:induction false} XorFoldColumn(n: nat, a: seq<Buf>, b: seq<Buf>, i: nat)
    requires Uniform(n, a) && Uniform(n, b) && |a| == |b| && i < n
    requires forall k :: 0 <= k < |a| ==> a[k][i] == b[k][i]
    ensures XorFold(n, a)[i] == XorFold(n, b)[i]
    decreases |a|
  {
    if |a| > 0 {
      XorFoldColumn(n, a[..|a| - 1], b[..|b| - 1], i);
    }
  }

  /** Folding one more mapped item XORs its image onto the fold. */
  lemma XorFoldMapSnoc<T>(f: T -> Buf, n: nat, xs: seq<T>, x: T)
    requires MapsTo(f, n, xs) && |f(x)| == n
    ensures MapsTo(f, n, xs + [x])
    ensures XorFold(n, Map(f, xs + [x])) == Xor(XorFold(n, Map(f, xs)), f(x))
  {
    assert Map(f, xs + [x])[..|xs|] == Map(f, xs);
  }
}

=== FILE: wire.dfy ===
/** The two message encodings shared by `FullMesh` and `Channels`: a bit vector packed
    eight bools to a byte, and a list of index lists written as native 8-byte words. */
module Wire {
  import opened Bytes

  // ---------------------------------------------------------------------------
  // Bit vectors

  /** The single-bit masks `1 << k` for `k < 8`. */
  const BIT_MASKS: seq<byte> := [1, 2, 4, 8, 16, 32, 64, 128]

  function Mask(k: nat): byte
    requires k < 8
  {
    BIT_MASKS[k]
  }

  /** Bit `k` of byte `b`, read as `(b & (1 << k)) != 0`. */
  predicate BitSet(b: byte, k: nat)
    requires k < 8
  {
    b & Mask(k) != 0
  }

  lemma MaskBits(k: nat, t: nat)
    requires k < 8 && t < 8
    ensures BitSet(Mask(k), t) <==> t == k
  {
    if k == 0 {} else if k == 1 {} else if k == 2 {} else if k == 3 {}
    else if k == 4 {} else if k == 5 {} else if k == 6 {} else {}
  }

  lemma OrBit(a: byte, c: byte, t: nat)
    requires t < 8
    ensures BitSet(a | c, t) <==> BitSet(a, t) || BitSet(c, t)
  {
    if t == 0 {} else if t == 1 {} else if t == 2 {} else if t == 3 {}
    else if t == 4 {} else if t == 5 {} else if t == 6 {} else {}
  }

  lemma ZeroBits(t: nat)
    requires t < 8
    ensures !BitSet(0, t)
  {
  }

  /** Two bytes that agree on all eight bits are equal. */
  lemma ByteFromBits(a: byte, b: byte)
    requires forall t :: 0 <= t < 8 ==> (BitSet(a, t) <==> BitSet(b, t))
    ensures a == b
  {
    assert BitSet(a, 0) == BitSet(b, 0) && BitSet(a, 1) == BitSet(b, 1);
    assert BitSet(a, 2) == BitSet(b, 2) && BitSet(a, 3) == BitSet(b, 3);
    assert BitSet(a, 4) == BitSet(b, 4) && BitSet(a, 5) == BitSet(b, 5);
    assert BitSet(a, 6) == BitSet(b, 6) && BitSet(a, 7) == BitSet(b, 7);
  }

  /** Number of bytes carrying `n` bools: `(n + 7) / 8`. */
  function PackedSize(n: nat): nat { (n + 7) / 8 }

  /** `bytes` carries `bits`: the right number of bytes, bit `i` at byte `i / 8`, bit
      `i % 8`, and every bit past the last bool clear. */
  predicate Encodes(bits: seq<bool>, bytes: Buf) {
    && |bytes| == PackedSize(|bits|)
    && forall i :: 0 <= i < 8 * |bytes| ==> (BitSet(bytes[i / 8], i % 8) <==> i < |bits| && bits[i])
  }

  /** The byte holding positions `[base, base + k)` of `bits` in its low `k` bits. */
  function PackByte(bits: seq<bool>, base: nat, k: nat): (r: byte)
    requires k <= 8
    ensures forall t :: 0 <= t < 8 ==> (BitSet(r, t) <==> t < k && base + t < |bits| && bits[base + t])
  {
    if k == 0 then
      assert forall t :: 0 <= t < 8 ==> !BitSet(0, t);
      0
    else
      var low := PackByte(bits, base, k - 1);
      var bit: byte := if base + k - 1 < |bits| && bits[base + k - 1] then Mask(k - 1) else 0;
      var r := low | bit;
      forall t | 0 <= t < 8
        ensures BitSet(r, t) <==> t < k && base + t < |bits| && bits[base + t]
      {
        OrBit(low, bit, t);
        MaskBits(k - 1, t);
      }
      r
  }

  /** Reference packing: byte `j` holds bools `8j .. 8j+7`. */
  function PackBits(bits: seq<bool>): (r: Buf)
    ensures Encodes(bits, r)
  {
    var r := seq(PackedSize(|bits|), j requires 0 <= j < PackedSize(|bits|) => PackByte(bits, 8 * j, 8));
    forall i | 0 <= i < 8 * |r|
      ensures BitSet(r[i / 8], i % 8) <==> i < |bits| && bits[i]
    {
      assert 8 * (i / 8) + i % 8 == i;
    }
    r
  }

  /** At most one byte string carries a given bit vector. */
  lemma EncodingUnique(bits: seq<bool>, a: Buf, b: Buf)
    requires Encodes(bits, a) && Encodes(bits, b)
    ensures a == b
  {
    forall j | 0 <= j < |a|
      ensures a[j] == b[j]
    {
      forall t | 0 <= t < 8
        ensures BitSet(a[j], t) <==> BitSet(b[j], t)
      {
        var i := 8 * j + t;
        assert i / 8 == j && i % 8 == t;
      }
      ByteFromBits(a[j], b[j]);
    }
  }

  /** The sending loop of `send(…, std::vector<bool>)`: start from `(n + 7) / 8` zero bytes
      and OR `1 << (i % 8)` into byte `i / 8` for every set bool. */
  method PackBitsLoop(bits: seq<bool>) returns (bytes: Buf)
    ensures Encodes(bits, bytes)
    ensures bytes == PackBits(bits)
  {
    bytes := Zeros(PackedSize(|bits|));
    var i := 0;
    while i < |bits|
      invariant 0 <= i <= |bits|
      invariant |bytes| == PackedSize(|bits|)
      invariant forall p :: 0 <= p < 8 * |bytes| ==> (BitSet(bytes[p / 8], p % 8) <==> p < i && bits[p])
    {
      if bits[i] {
        var old_bytes := bytes;
        bytes := bytes[i / 8 := bytes[i / 8] | Mask(i % 8)];
        forall p | 0 <= p < 8 * |bytes|
          ensures BitSet(bytes[p / 8], p % 8) <==> p < i + 1 && bits[p]
        {
          if p / 8 == i / 8 {
            OrBit(old_bytes[p / 8], Mask(i % 8), p % 8);
            MaskBits(i % 8, p % 8);
            assert p % 8 == i % 8 <==> p == i;
          }
        }
      }
      i := i + 1;
    }
    forall p | 0 <= p < 8 * |bytes|
      ensures BitSet(bytes[p / 8], p % 8) <==> p < |bits| && bits[p]
    {
    }
    EncodingUnique(bits, bytes, PackBits(bits));
  }

  /** `receive(…, std::vector<bool>&)`: eight bools per byte, least significant bit first. */
  function UnpackBits(bytes: Buf): (r: seq<bool>)
    ensures |r| == 8 * |bytes|
  {
    seq(8 * |bytes|, i requires 0 <= i < 8 * |bytes| => BitSet(bytes[i / 8], i % 8))
  }

  /** Decoding a packed vector gives back its bools followed by `false` up to the next
      multiple of eight. */
  lemma UnpackPackBits(bits: seq<bool>)
    ensures UnpackBits(PackBits(bits)) == bits + seq(8 * PackedSize(|bits|) - |bits|, _ => false)
  {
  }

  /** Every byte string is the packing of its own decoding. */
  lemma PackUnpackBits(bytes: Buf)
    ensures PackBits(UnpackBits(bytes)) == bytes
  {
    var bits := UnpackBits(bytes);
    assert Encodes(bits, bytes);
    EncodingUnique(bits, PackBits(bits), bytes);
  }

  // ---------------------------------------------------------------------------
  // Lists of index lists

  /** Encodable: every count fits in a `size_t`. */
  predicate Encodable(lists: seq<seq<u64>>) {
    |lists| < U64_LIMIT && forall k :: 0 <= k < |lists| ==> |lists[k]| < U64_LIMIT
  }

  /** The words of the body: for each list, its length and then its values. */
  function BodyWords(lists: seq<seq<u64>>): seq<u64>
    requires Encodable(lists)
  {
    if |lists| == 0 then [] else [|lists[0]| as u64] + lists[0] + BodyWords(lists[1..])
  }

  /** The `size_t` words written by `send(…, std::vector<std::vector<size_t>>)`: the outer
      count, then every list. */
  function ListWords(lists: seq<seq<u64>>): seq<u64>
    requires Encodable(lists)
  {
    [|lists| as u64] + BodyWords(lists)
  }

  /** Total number of values in all lists. */
  function TotalLength(lists: seq<seq<u64>>): nat {
    if |lists| == 0 then 0 else |lists[0]| + TotalLength(lists[1..])
  }

  lemma {:induction false} BodyWordsLength(lists: seq<seq<u64>>)
    requires Encodable(lists)
    ensures |BodyWords(lists)| == |lists| + TotalLength(lists)
    decreases |lists|
  {
    if |lists| > 0 {
      BodyWordsLength(lists[1..]);
    }
  }

  /** Reading a list from a word stream: its length, then that many values. */
  function TakeList(ws: seq<u64>): (r: Option<(seq<u64>, seq<u64>)>)
    ensures r.Some? ==> |r.value.0| < U64_LIMIT && |r.value.1| < |ws|
  {
    if |ws| == 0 || |ws| - 1 < ws[0] then None
    else Some((ws[1..1 + ws[0]], ws[1 + ws[0]..]))
  }

  function TakeLists(ws: seq<u64>, count: nat): (r: Option<seq<seq<u64>>>)
    ensures r.Some? ==> |r.value| == count
    decreases count
  {
    if count == 0 then Some([])
    else
      var l := TakeList(ws);
      if l.None? then None
      else
        var t := TakeLists(l.value.1, count - 1);
        if t.None? then None else Some([l.value.0] + t.value)
  }

  /** Decoding a word stream: the outer count, then the lists; words after the last list
      are ignored, and a stream that ends early decodes to `None`. */
  function DecodeListWords(ws: seq<u64>): Option<seq<seq<u64>>> {
    if |ws| == 0 then None else TakeLists(ws[1..], ws[0])
  }

  lemma TakeListOf(vs: seq<u64>, rest: seq<u64>)
    requires |vs| < U64_LIMIT
    ensures TakeList([|vs| as u64] + vs + rest) == Some((vs, rest))
  {
    var ws := [|vs| as u64] + vs + rest;
    assert ws[1..1 + |vs|] == vs;
    assert ws[1 + |vs|..] == rest;
  }

  lemma {:induction false} TakeListsOf(lists: seq<seq<u64>>, rest: seq<u64>)
    requires Encodable(lists)
    ensures TakeLists(BodyWords(lists) + rest, |lists|) == Some(lists)
    decreases |lists|
  {
    if |lists| > 0 {
      var tail := BodyWords(lists[1..]) + rest;
      assert BodyWords(lists) + rest == [|lists[0]| as u64] + lists[0] + tail;
      TakeListOf(lists[0], tail);
      TakeListsOf(lists[1..], rest);
      assert [lists[0]] + lists[1..] == lists;
    }
  }

  /** The word-level round trip: whatever words follow an encoding are ignored. */
  lemma DecodeListWordsOf(lists: seq<seq<u64>>, rest: seq<u64>)
    requires Encodable(lists)
    ensures DecodeListWords(ListWords(lists) + rest) == Some(lists)
  {
    assert (ListWords(lists) + rest)[1..] == BodyWords(lists) + rest;
    TakeListsOf(lists, rest);
  }

  /** A word writer whose output `ReadWord` reads back: `Word` is one. The stream lemmas
      below are stated for any such writer, so that their proofs do not depend on how a
      word is laid out byte by byte. */
  predicate WordCodec(enc: u64 -> Buf) {
    forall v: u64 :: |enc(v)| == 8 && ReadWord(enc(v)) == v
  }

  lemma WordIsCodec()
    ensures WordCodec(Word)
  {
    forall v: u64
      ensures |Word(v)| == 8 && ReadWord(Word(v)) == v
    {
      ReadWordOf(v, []);
      assert Word(v) + [] == Word(v);
    }
  }

  /** Words written one after another by `enc`. */
  function WriteWords(enc: u64 -> Buf, ws: seq<u64>): (r: Buf)
    requires WordCodec(enc)
    ensures |r| == 8 * |ws|
    ensures forall k :: 0 <= k < |ws| ==> r[8 * k .. 8 * k + 8] == enc(ws[k])
  {
    var r := seq(8 * |ws|, i requires 0 <= i < 8 * |ws| => enc(ws[i / 8])[i % 8]);
    forall k | 0 <= k < |ws|
      ensures r[8 * k .. 8 * k + 8] == enc(ws[k])
    {
      forall i | 0 <= i < 8
        ensures r[8 * k + i] == enc(ws[k])[i]
      {
        assert (8 * k + i) / 8 == k;
      }
    }
    r
  }

  /** The whole words of a payload, in order; a trailing partial word is not read. */
  function ReadWords(b: Buf): (r: seq<u64>)
    ensures |r| == |b| / 8
  {
    seq(|b| / 8, k requires 0 <= k < |b| / 8 => ReadWord(b[8 * k..]))
  }

  /** Reading back written words gives them in order, then whatever follows. */
  lemma ReadWriteWords(enc: u64 -> Buf, ws: seq<u64>, rest: Buf)
    requires WordCodec(enc)
    ensures ReadWords(WriteWords(enc, ws) + rest) == ws + ReadWords(rest)
  {
    var b := WriteWords(enc, ws) + rest;
    var r := ReadWords(b);
    var expected := ws + ReadWords(rest);
    forall k | 0 <= k < |r|
      ensures r[k] == expected[k]
    {
      if k < |ws| {
        assert b[8 * k..][..8] == enc(ws[k])[..8];
        assert enc(ws[k])[..8] == enc(ws[k]);
      } else {
        assert b[8 * k..] == rest[8 * (k - |ws|)..];
      }
    }
  }

  /** `size_t` values as the source writes them: 8 little-endian bytes each. */
  function Words(ws: seq<u64>): (r: Buf)
    ensures |r| == 8 * |ws|
  {
    WordIsCodec();
    WriteWords(Word, ws)
  }

  lemma ReadWordsOf(ws: seq<u64>, rest: Buf)
    ensures ReadWords(Words(ws) + rest) == ws + ReadWords(rest)
  {
    WordIsCodec();
    ReadWriteWords(Word, ws, rest);
  }

  /** The bytes of `send(…, std::vector<std::vector<size_t>>)`: read back word by word,
      they are the outer count, then each list's length followed by its values. */
  function EncodeLists(lists: seq<seq<u64>>): (r: Buf)
    requires Encodable(lists)
    ensures |r| == 8 * |ListWords(lists)|
    ensures ReadWords(r) == ListWords(lists)
  {
    var ws := ListWords(lists);
    ReadWordsOf(ws, []);
    assert Words(ws) + [] == Words(ws);
    assert ws + ReadWords([]) == ws;
    Words(ws)
  }

  /** An encoding is `8 * (1 + outer count + total inner count)` bytes long. */
  lemma EncodeListsLength(lists: seq<seq<u64>>)
    requires Encodable(lists)
    ensures |EncodeLists(lists)| == 8 * (1 + |lists| + TotalLength(lists))
  {
    BodyWordsLength(lists);
  }

  /** `receive(…, std::vector<std::vector<size_t>>&)`: an empty payload leaves the outer
      count at zero and decodes to no lists; otherwise the outer count and the lists are
      read word by word, bytes after the last list are ignored, and a payload that ends
      before the lists do decodes to `None`. */
  function DecodeLists(b: Buf): (r: Option<seq<seq<u64>>>)
    ensures |b| == 0 ==> r == Some([])
    ensures 0 < |b| < 8 ==> r == None
    ensures |b| > 0 && r.Some? ==> Encodable(r.value) && EncodeLists(r.value) <= b
  {
    if |b| == 0 then Some([])
    else
      var r := DecodeListWords(ReadWords(b));
      if r.Some? then DecodedIsPrefix(b); r else r
  }

  /** A list stream that decodes was laid out by `BodyWords`. */
  lemma {:induction false} TakeListsPrefix(ws: seq<u64>, count: nat)
    requires count < U64_LIMIT && TakeLists(ws, count).Some?
    ensures Encodable(TakeLists(ws, count).value)
    ensures BodyWords(TakeLists(ws, count).value) <= ws
    decreases count
  {
    if count > 0 {
      var l := TakeList(ws).value;
      TakeListsPrefix(l.1, count - 1);
      var t := TakeLists(l.1, count - 1).value;
      var ls := TakeLists(ws, count).value;
      assert ls == [l.0] + t;
      assert ls[1..] == t;
      assert ws == [ws[0]] + l.0 + l.1;
    }
  }

  /** A word stream that decodes starts with the words of its result. */
  lemma DecodeListWordsPrefix(ws: seq<u64>)
    requires DecodeListWords(ws).Some?
    ensures Encodable(DecodeListWords(ws).value)
    ensures ListWords(DecodeListWords(ws).value) <= ws
  {
    TakeListsPrefix(ws[1..], ws[0] as nat);
    assert ws == [ws[0]] + ws[1..];
  }

  /** The first `m` words of a payload, written back, are its first `8 * m` bytes. */
  lemma WordsOfReadWords(b: Buf, m: nat)
    requires m <= |b| / 8
    ensures Words(ReadWords(b)[..m]) == b[..8 * m]
  {
    var ws := ReadWords(b)[..m];
    var w := Words(ws);
    forall i | 0 <= i < 8 * m
      ensures w[i] == b[i]
    {
      WordsByte(b, ws, i);
    }
  }

  lemma WordsByte(b: Buf, ws: seq<u64>, i: nat)
    requires |ws| <= |b| / 8 && ws == ReadWords(b)[..|ws|] && i < 8 * |ws|
    ensures Words(ws)[i] == b[i]
  {
    WordIsCodec();
    var k := i / 8;
    var w := Words(ws);
    assert ws[k] == ReadWord(b[8 * k..]);
    ReadWordInverse(b[8 * k..]);
    assert w[8 * k .. 8 * k + 8] == Word(ws[k]) == b[8 * k..][..8];
    assert w[i] == w[8 * k .. 8 * k + 8][i - 8 * k];
  }

  lemma DecodedIsPrefix(b: Buf)
    requires |b| > 0 && DecodeListWords(ReadWords(b)).Some?
    ensures Encodable(DecodeListWords(ReadWords(b)).value)
    ensures EncodeLists(DecodeListWords(ReadWords(b)).value) <= b
  {
    var ws := ReadWords(b);
    DecodeListWordsPrefix(ws);
    var lw := ListWords(DecodeListWords(ws).value);
    assert lw == ws[..|lw|];
    WordsOfReadWords(b, |lw|);
  }

  /** Decoding an encoding returns the lists exactly, whatever bytes follow it. */
  lemma DecodeEncodeLists(lists: seq<seq<u64>>, trailing: Buf)
    requires Encodable(lists)
    ensures DecodeLists(EncodeLists(lists) + trailing) == Some(lists)
  {
    var ws := ListWords(lists);
    ReadWordsOf(ws, trailing);
    assert |EncodeLists(lists) + trailing| > 0;
    DecodeListWordsOf(lists, ReadWords(trailing));
  }

  /** The empty payload decodes to no lists. */
  lemma DecodeEmpty()
    ensures DecodeLists([]) == Some([])
  {
  }
}

=== FILE: zero_sharing.dfy ===
/** Zero-sharing (`create_zero_share*` in secret_sharing_simd): a party's share is the
    XOR of the hash expansions of its seeds, so seeds held by two parties cancel
    when all shares are XOR-ed together. The hash is an uninterpreted
    extendable-output function passed in as a parameter. The cancellation results are
    about the intended seed-only expansion; the last section models the expansion as
    written, whose hash input runs past the seed, and shows that it breaks cancellation. */
module ZeroSharing {
  import opened Bytes
  import opened SimdBytes

  /** An extendable-output hash `H(seed, n)` of the 16 seed bytes alone, exactly `n` bytes
      long: what the array-seed `blake3_xof` of secret_sharing_simd.cpp computes, and the
      expansion `do_generic_hash` is meant to provide. The expansion as written reads past
      the seed; see `HashInput` below. */
  type Xof = h: (Seed, nat) -> Buf | forall s: Seed, n: nat :: |h(s, n)| == n
    witness (s: Seed, n: nat) => Zeros(n)

  /** The expansion of a seed to `n` bytes. */
  function Expand(h: Xof, n: nat): Seed -> Buf {
    (s: Seed) => h(s, n)
  }

  /** Reference zero-share: the XOR of the `n`-byte expansions of all seeds (zero bytes for none). */
  function ZeroShare(h: Xof, n: nat, seeds: seq<Seed>): (r: Buf)
    ensures |r| == n
  {
    XorFold(n, Map(Expand(h, n), seeds))
  }

  /** Appending a seed XORs its expansion into the share. */
  lemma ZeroShareSnoc(h: Xof, n: nat, seeds: seq<Seed>, s: Seed)
    ensures ZeroShare(h, n, seeds + [s]) == Xor(ZeroShare(h, n, seeds), h(s, n))
  {
    var m := Map(Expand(h, n), seeds + [s]);
    assert m[..|seeds|] == Map(Expand(h, n), seeds);
  }

  /** A one-seed share is the expansion of that seed. */
  lemma ZeroShareSingle(h: Xof, n: nat, s: Seed)
    ensures ZeroShare(h, n, [s]) == h(s, n)
  {
    assert [] + [s] == [s];
    ZeroShareSnoc(h, n, [], s);
    XorZero(h(s, n));
  }

  /** Shares over concatenated seed lists XOR together. */
  lemma ZeroShareConcat(h: Xof, n: nat, a: seq<Seed>, b: seq<Seed>)
    ensures ZeroShare(h, n, a + b) == Xor(ZeroShare(h, n, a), ZeroShare(h, n, b))
  {
    var e := Expand(h, n);
    assert Map(e, a + b) == Map(e, a) + Map(e, b);
    XorFoldConcat(n, Map(e, a), Map(e, b));
  }

  /** `create_zero_share_no_resize` (and `create_zero_share2`, the same loop): start from
      the first seed's expansion and `^=` the others in order. The source dereferences
      the first seed, so at least one is required. */
  method CreateZeroShareNoResize(h: Xof, seeds: seq<Seed>, n: nat) returns (share: Buf)
    requires |seeds| >= 1
    ensures share == ZeroShare(h, n, seeds)
  {
    share := h(seeds[0], n);
    ZeroShareSingle(h, n, seeds[0]);
    assert seeds[..1] == [seeds[0]];
    var k := 1;
    while k < |seeds|
      invariant 1 <= k <= |seeds|
      invariant share == ZeroShare(h, n, seeds[..k])
    {
      ZeroShareSnoc(h, n, seeds[..k], seeds[k]);
      assert seeds[..k] + [seeds[k]] == seeds[..k + 1];
      share := Xor(share, h(seeds[k], n));
      k := k + 1;
    }
    assert seeds[..k] == seeds;
  }

  /** Resizing distributes over XOR. */
  lemma ResizeXor(a: Buf, b: Buf, m: nat)
    requires |a| == |b|
    ensures Resize(Xor(a, b), m) == Xor(Resize(a, m), Resize(b, m))
  {
  }

  /** `create_zero_share`: every expansion is cut or zero-padded to the number of seeds
      before it is XOR-ed in, so the share is the reference share resized to `|seeds|`. */
  method CreateZeroShare(h: Xof, seeds: seq<Seed>, n: nat) returns (share: Buf)
    requires |seeds| >= 1
    ensures share == Resize(ZeroShare(h, n, seeds), |seeds|)
  {
    var m := |seeds|;
    share := Resize(h(seeds[0], n), m);
    ZeroShareSingle(h, n, seeds[0]);
    assert seeds[..1] == [seeds[0]];
    var k := 1;
    while k < m
      invariant 1 <= k <= m
      invariant share == Resize(ZeroShare(h, n, seeds[..k]), m)
    {
      ZeroShareSnoc(h, n, seeds[..k], seeds[k]);
      assert seeds[..k] + [seeds[k]] == seeds[..k + 1];
      ResizeXor(ZeroShare(h, n, seeds[..k]), h(seeds[k], n), m);
      share := Xor(share, Resize(h(seeds[k], n), m));
      k := k + 1;
    }
    assert seeds[..k] == seeds;
  }

  /** `create_zero_share_parallel_no_threadpool`: the resized expansions are computed
      independently and combined in seed order; with no seeds the result is empty. */
  method CreateZeroShareParallelNoThreadpool(h: Xof, seeds: seq<Seed>, n: nat) returns (result: Buf)
    ensures result == Resize(ZeroShare(h, n, seeds), |seeds|)
  {
    var m := |seeds|;
    var hashes := seq(m, i requires 0 <= i < m => Resize(h(seeds[i], n), m));
    result := Zeros(m);
    var first := true;
    var k := 0;
    while k < m
      invariant 0 <= k <= m
      invariant first <==> k == 0
      invariant result == Resize(ZeroShare(h, n, seeds[..k]), m)
    {
      ZeroShareSnoc(h, n, seeds[..k], seeds[k]);
      assert seeds[..k] + [seeds[k]] == seeds[..k + 1];
      if first {
        XorZero(h(seeds[k], n));
        result := hashes[k];
        first := false;
      } else {
        ResizeXor(ZeroShare(h, n, seeds[..k]), h(seeds[k], n), m);
        result := Xor(result, hashes[k]);
      }
      k := k + 1;
    }
    assert seeds[..k] == seeds;
  }

  /** `create_zero_share_parallel`: the expansions are computed by a pool and read back in
      seed order; the result starts as `n` zero bytes, which is what it stays with no seeds. */
  method CreateZeroShareParallel(h: Xof, seeds: seq<Seed>, n: nat) returns (result: Buf)
    ensures result == ZeroShare(h, n, seeds)
    ensures |seeds| == 0 ==> result == Zeros(n)
  {
    var hashes := seq(|seeds|, i requires 0 <= i < |seeds| => h(seeds[i], n));
    result := Zeros(n);
    var first := true;
    var k := 0;
    while k < |seeds|
      invariant 0 <= k <= |seeds|
      invariant first <==> k == 0
      invariant result == ZeroShare(h, n, seeds[..k])
    {
      ZeroShareSnoc(h, n, seeds[..k], seeds[k]);
      assert seeds[..k] + [seeds[k]] == seeds[..k + 1];
      if first {
        XorZero(h(seeds[k], n));
        result := hashes[k];
        first := false;
      } else {
        result := Xor(result, hashes[k]);
      }
      k := k + 1;
    }
    assert seeds[..k] == seeds;
  }

  /** The share does not depend on the order of the seeds, only on how often each occurs. */
  lemma ZeroShareOrderIndependent(h: Xof, n: nat, a: seq<Seed>, b: seq<Seed>)
    requires multiset(a) == multiset(b)
    ensures ZeroShare(h, n, a) == ZeroShare(h, n, b)
  {
    XorFoldPermutation(Expand(h, n), n, a, b);
  }

  /** The share of each party, one row of seeds per party. */
  function SharesOf(h: Xof, n: nat, rows: seq<seq<Seed>>): (r: seq<Buf>)
    ensures |r| == |rows| && Uniform(n, r)
  {
    seq(|rows|, k requires 0 <= k < |rows| => ZeroShare(h, n, rows[k]))
  }

  /** XOR-ing all parties' shares is the share over all their seeds together. */
  lemma {:induction false} AggregateIsShareOfAllSeeds(h: Xof, n: nat, rows: seq<seq<Seed>>)
    ensures XorFold(n, SharesOf(h, n, rows)) == ZeroShare(h, n, Flatten(rows))
    decreases |rows|
  {
    if |rows| == 0 {
      assert Flatten(rows) == [];
    } else {
      var init := rows[..|rows| - 1];
      var last := rows[|rows| - 1];
      assert rows == init + [last];
      AggregateIsShareOfAllSeeds(h, n, init);
      assert SharesOf(h, n, rows)[..|rows| - 1] == SharesOf(h, n, init);
      FlattenConcat(init, [last]);
      assert Flatten([last]) == last + Flatten([last][1..]);
      assert Flatten([last]) == last;
      ZeroShareConcat(h, n, Flatten(init), last);
    }
  }

  /** Cancellation: when every seed occurs an even number of times across all rows, the
      XOR of all parties' zero-shares is all-zero. */
  lemma ZeroSharesCancel(h: Xof, n: nat, rows: seq<seq<Seed>>)
    requires forall s :: multiset(Flatten(rows))[s] % 2 == 0
    ensures XorFold(n, SharesOf(h, n, rows)) == Zeros(n)
  {
    AggregateIsShareOfAllSeeds(h, n, rows);
    XorFoldEvenCancels(Expand(h, n), n, Flatten(rows));
  }

  /** Seed rows of three parties that share one pairwise seed with each other party. */
  function ThreePartyRows(s12: Seed, s13: Seed, s23: Seed): seq<seq<Seed>> {
    [[s12, s13], [s12, s23], [s13, s23]]
  }

  function Indicator<T(==)>(s: T, x: T): nat { if s == x then 1 else 0 }

  lemma PairCount<T>(x: T, y: T, s: T)
    ensures multiset([x, y])[s] == Indicator(s, x) + Indicator(s, y)
  {
    assert [x, y] == [x] + [y];
  }

  /** In three pairs drawn from three items, each item appears twice. */
  lemma PairwiseEven<T>(a: T, b: T, c: T, s: T)
    ensures multiset([a, b] + [a, c] + [b, c])[s] % 2 == 0
  {
    PairCount(a, b, s);
    PairCount(a, c, s);
    PairCount(b, c, s);
  }

  lemma ThreePartySeedsEven(s12: Seed, s13: Seed, s23: Seed)
    ensures forall s :: multiset(Flatten(ThreePartyRows(s12, s13, s23)))[s] % 2 == 0
  {
    var rows := ThreePartyRows(s12, s13, s23);
    assert rows[3..] == [];
    assert Flatten(rows[2..]) == [s13, s23];
    assert Flatten(rows) == [s12, s13] + [s12, s23] + [s13, s23];
    forall s ensures multiset(Flatten(rows))[s] % 2 == 0 {
      PairwiseEven(s12, s13, s23, s);
    }
  }

  /** XOR-folding three buffers is XOR-ing them left to right. */
  lemma XorFoldThree(n: nat, a: Buf, b: Buf, c: Buf)
    requires |a| == |b| == |c| == n
    ensures XorFold(n, [a, b, c]) == Xor(Xor(a, b), c)
  {
    assert [a, b, c][..2] == [a, b] && [a, b][..1] == [a] && [a][..0] == [];
    XorZero(a);
    assert XorFold(n, [a]) == a;
    assert XorFold(n, [a, b]) == Xor(a, b);
  }

  /** Three parties, each pair holding a common seed (the seeds {1,2}, {1,3}, {2,3} of the
      source's test are one instance): their shares XOR to zero, whatever the seeds and length. */
  lemma ThreePartySharesCancel(h: Xof, n: nat, s12: Seed, s13: Seed, s23: Seed)
    ensures Xor(Xor(ZeroShare(h, n, [s12, s13]), ZeroShare(h, n, [s12, s23])),
                ZeroShare(h, n, [s13, s23])) == Zeros(n)
  {
    ThreePartySeedsEven(s12, s13, s23);
    ZeroSharesCancel(h, n, ThreePartyRows(s12, s13, s23));
    var sh := SharesOf(h, n, ThreePartyRows(s12, s13, s23));
    assert sh == [sh[0], sh[1], sh[2]];
    XorFoldThree(n, sh[0], sh[1], sh[2]);
  }

  const SEED_1: Seed := seq(16, _ => 1 as byte)
  const SEED_2: Seed := seq(16, _ => 2 as byte)
  const SEED_3: Seed := seq(16, _ => 3 as byte)

  /** The expected outcome of the three-party test in test_secret_sharing.cpp: seeds of all
      ones, twos and threes, and 128-byte shares of the seeds alone that XOR to zero. */
  lemma ThreePartyExample(h: Xof)
    ensures Xor(Xor(ZeroShare(h, 128, [SEED_1, SEED_2]), ZeroShare(h, 128, [SEED_1, SEED_3])),
                ZeroShare(h, 128, [SEED_2, SEED_3])) == Zeros(128)
  {
    ThreePartySharesCancel(h, 128, SEED_1, SEED_2, SEED_3);
  }

  /** `create_zero_share` on the test's first two seeds with 128 requested bytes: every
      expansion is resized to the seed count, so the share has 2 bytes where the test
      expects 128. */
  method TestShareAsWritten(h: Xof) returns (share: Buf)
    ensures |share| == 2
    ensures share == ZeroShare(h, 128, [SEED_1, SEED_2])[..2]
  {
    share := CreateZeroShare(h, [SEED_1, SEED_2], 128);
  }

  // ---------------------------------------------------------------------------
  // the expansion as written

  /** A hash over a byte string that returns the requested number of bytes: the
      `blake3_xof(const uint8_t*, size_t)` of hash_funcs.cpp, the default hash. */
  type ByteHash = h: (Buf, nat) -> Buf | forall b: Buf, n: nat :: |h(b, n)| == n
    witness (b: Buf, n: nat) => Zeros(n)

  /** The intended expansion, as the array-seed `blake3_xof` computes it: the byte hash
      called with the 16 seed bytes as input and `n` bytes of output. The byte-string
      `blake3_xof` of hash_funcs.cpp cannot make this call, since it reads as many input
      bytes as it writes. */
  function SeedHash(h: ByteHash): (x: Xof)
    ensures forall s: Seed, n: nat :: x(s, n) == h(s, n)
  {
    (s: Seed, n: nat) => h(s, n)
  }

  /** The `n` input bytes `do_generic_hash` hands the hash for seed `k` of a row as written:
      it passes the output length as the input length, so the hash reads that seed, the
      seeds after it in the row's contiguous storage, and then `rest(j)`, the `j`-th byte of
      whatever memory follows the row. */
  function HashInput(seeds: seq<Seed>, k: nat, n: nat, rest: nat -> byte): (r: Buf)
    requires k < |seeds|
    ensures |r| == n
    ensures forall i :: 0 <= i < n && i < RAND_SECRET_SIZE * (|seeds| - k) ==>
              r[i] == seeds[k + i / RAND_SECRET_SIZE][i % RAND_SECRET_SIZE]
    ensures forall i :: RAND_SECRET_SIZE * (|seeds| - k) <= i < n ==>
              r[i] == rest(i - RAND_SECRET_SIZE * (|seeds| - k))
  {
    var inRow := RAND_SECRET_SIZE * (|seeds| - k);
    seq(n, i requires 0 <= i < n =>
      if i < inRow then seeds[k + i / RAND_SECRET_SIZE][i % RAND_SECRET_SIZE] else rest(i - inRow))
  }

  /** The expansion of seed `k` as written. Up to 16 bytes it hashes a prefix of the seed
      alone; beyond that the input runs on into the next seed or past the row. */
  function ExpandAsWritten(h: ByteHash, seeds: seq<Seed>, k: nat, n: nat, rest: nat -> byte): (r: Buf)
    requires k < |seeds|
    ensures |r| == n
    ensures n <= RAND_SECRET_SIZE ==> r == h(seeds[k][..n], n)
  {
    var input := HashInput(seeds, k, n, rest);
    if n <= RAND_SECRET_SIZE then
      assert input == seeds[k][..n] by {
        forall i | 0 <= i < n
          ensures input[i] == seeds[k][i]
        {
          assert i / RAND_SECRET_SIZE == 0;
        }
      }
      h(input, n)
    else
      h(input, n)
  }

  /** `create_zero_share_no_resize` as written: the XOR of the over-reading expansions. */
  function ZeroShareAsWritten(h: ByteHash, n: nat, seeds: seq<Seed>, rest: nat -> byte): (r: Buf)
    ensures |r| == n
  {
    var e := seq(|seeds|, k requires 0 <= k < |seeds| => ExpandAsWritten(h, seeds, k, n, rest));
    assert Uniform(n, e);
    XorFold(n, e)
  }

  /** Asked for exactly the seed size, the hash reads just the seed, so the share as written
      is the share of the intended seed-only expansion. */
  lemma SeedSizedShareAsWritten(h: ByteHash, seeds: seq<Seed>, rest: nat -> byte)
    ensures forall k :: 0 <= k < |seeds| ==> HashInput(seeds, k, RAND_SECRET_SIZE, rest) == seeds[k]
    ensures ZeroShareAsWritten(h, RAND_SECRET_SIZE, seeds, rest)
            == ZeroShare(SeedHash(h), RAND_SECRET_SIZE, seeds)
  {
    forall k | 0 <= k < |seeds|
      ensures HashInput(seeds, k, RAND_SECRET_SIZE, rest) == seeds[k]
    {
      var r := HashInput(seeds, k, RAND_SECRET_SIZE, rest);
      forall i | 0 <= i < RAND_SECRET_SIZE
        ensures r[i] == seeds[k][i]
      {
        assert i / RAND_SECRET_SIZE == 0 && i % RAND_SECRET_SIZE == i;
      }
    }
    var n := RAND_SECRET_SIZE;
    var e := seq(|seeds|, k requires 0 <= k < |seeds| => ExpandAsWritten(h, seeds, k, n, rest));
    assert e == Map(Expand(SeedHash(h), n), seeds);
  }

  /** Two holders of one pair seed `s`, each holding a different second seed: for any
      length past the seed, their hash inputs for `s` differ, whatever memory follows each
      row, so the two expansions of `s` need not cancel. */
  lemma PairSeedHoldersHashDifferentInputs(s: Seed, a: Seed, b: Seed, n: nat,
                                           restA: nat -> byte, restB: nat -> byte)
    requires a != b && n >= 2 * RAND_SECRET_SIZE
    ensures HashInput([s, a], 0, n, restA) != HashInput([s, b], 0, n, restB)
  {
    assert exists i :: 0 <= i < RAND_SECRET_SIZE && a[i] != b[i];
    var i :| 0 <= i < RAND_SECRET_SIZE && a[i] != b[i];
    var j := RAND_SECRET_SIZE + i;
    assert j / RAND_SECRET_SIZE == 1 && j % RAND_SECRET_SIZE == i;
    assert HashInput([s, a], 0, n, restA)[j] == a[i];
    assert HashInput([s, b], 0, n, restB)[j] == b[i];
  }

  /** A byte hash that returns its input, cut or padded to the requested length. */
  function ResizeHash(): (h: ByteHash)
    ensures forall b: Buf, n: nat :: h(b, n) == Resize(b, n)
  {
    (b: Buf, n: nat) => Resize(b, n)
  }

  /** Memory past a row that reads as zero. */
  function ZeroRest(): nat -> byte {
    (j: nat) => 0 as byte
  }

  /** XOR-folding two buffers is XOR-ing them. */
  lemma XorFoldTwo(n: nat, a: Buf, b: Buf)
    requires |a| == |b| == n
    ensures XorFold(n, [a, b]) == Xor(a, b)
  {
    assert [a, b][..1] == [a] && [a][..0] == [];
    XorZero(a);
    assert XorFold(n, [a]) == a;
  }

  /** Byte 16 of a two-seed share as written, under `ResizeHash` and zero memory past the
      row, is the second seed's first byte: the first expansion reads it, the second reads
      only zeros there. */
  lemma TwoSeedShareByte(a: Seed, b: Seed)
    ensures ZeroShareAsWritten(ResizeHash(), 32, [a, b], ZeroRest())[16] == b[0]
  {
    var h := ResizeHash();
    var z := ZeroRest();
    var e0 := ExpandAsWritten(h, [a, b], 0, 32, z);
    var e1 := ExpandAsWritten(h, [a, b], 1, 32, z);
    assert seq(2, k requires 0 <= k < 2 => ExpandAsWritten(h, [a, b], k, 32, z)) == [e0, e1];
    XorFoldTwo(32, e0, e1);
    assert 16 / RAND_SECRET_SIZE == 1 && 16 % RAND_SECRET_SIZE == 0;
    assert e0[16] == HashInput([a, b], 0, 32, z)[16] == b[0];
    assert e1[16] == HashInput([a, b], 1, 32, z)[16] == 0;
  }

  /** The three-party test with the expansion as written: 32-byte shares of the seeds of all
      ones, twos and threes do not XOR to zero under `ResizeHash`, because the expansion of
      each pair seed reads a different following seed in its two holders' rows. */
  lemma OverReadSharesDoNotCancel()
    ensures var z := ZeroRest();
            var agg := Xor(Xor(ZeroShareAsWritten(ResizeHash(), 32, [SEED_1, SEED_2], z),
                               ZeroShareAsWritten(ResizeHash(), 32, [SEED_1, SEED_3], z)),
                           ZeroShareAsWritten(ResizeHash(), 32, [SEED_2, SEED_3], z));
            agg[16] == 2 && agg != Zeros(32)
  {
    TwoSeedShareByte(SEED_1, SEED_2);
    TwoSeedShareByte(SEED_1, SEED_3);
    TwoSeedShareByte(SEED_2, SEED_3);
  }
}
